=== FILE: README.md ===
# Golf score manager — a Dafny model of its storage core

The golf score manager keeps golf rounds and user accounts in Google Sheets.
This project models the part of it that decides what is written to and read
from those sheets, and proves properties of that model:

- `golf_score_manager.py` — the round record (`create_golf_round`,
  `add_score`, `add_detailed_score`, `calculate_handicap`), the row of 5 + 6·holes cells
  (113 for eighteen holes) `save_to_sheets` appends, the header row and its `A1:DI1` range
  (`num_to_col_letters`), the loader `load_from_sheets` and
  `get_player_statistics`.
- `static/js/google-sheets-api.js` — the browser gateway: how `init` waits
  for the Google API script and classifies a failed client initialisation,
  `getUsers`, `registerUser`, `loginUser`, the row `saveScore` appends,
  `getScores` and `getStatistics`.
- `user_manager.py` — the Users sheet: the `salt:hash` password format,
  lookups by username, email and id, `register_user`, `authenticate_user`,
  `update_last_login` and `get_all_users`.

A sheet read is an input to the model (a sequence of rows of strings, or
`None` when the read failed); a write is an output (the row to append, the
range and values to update). Cells written with `USER_ENTERED` are read back
as their plain rendering (`Cells.Render`). Clock values, salts, generated ids
and the PBKDF2 function are parameters.

Modules, in dependency order:

| file | module | contents |
|---|---|---|
| wrappers.dfy | `Wrappers` | `Option` |
| sequences.dfy | `Sequences` | `Map`, indexed filtering, `Flatten`, and how each distributes over `+` |
| text.dfy | `Text` | decimal rendering, `isdigit`/`parseInt` readings, `trim`, lower-casing, `split`, hex |
| numbers.dfy | `Numbers` | sum, min, max, the rounded mean of `Math.round` |
| cells.dfy | `Cells` | string and number cells and their rendering |
| golf_rounds.dfy | `GolfRounds` | the round record and its updates |
| round_sheet.dfy | `RoundSheet` | the Python save row, header, column letters, loader, statistics |
| gateway_init.dfy | `GatewayInit` | `init` polling and error classification |
| gateway_users.dfy | `GatewayUsers` | the JS Users sheet: `getUsers`, `registerUser`, `loginUser` |
| gateway_scores.dfy | `GatewayScores` | the JS Score sheet: `saveScore`, `getScores`, `getStatistics` |
| user_table.dfy | `UserTable` | the Python Users sheet of `user_manager.py` |

Some behaviour of the source, stated and proved as written:

- Registration in the browser compares usernames and emails exactly
  (`registerUser`'s `some` checks), but login compares them ignoring case.
  So a user who registers "alice" while "Alice" exists cannot log in by
  username: the lookup finds "Alice" first
  (`GatewayUsers.CaseOnlyDuplicateCannotLogInByUsername`). Logging in by
  its own email still works (`GatewayUsers.CaseOnlyDuplicateLogsInByEmail`).
- `registerUser` stores the password as typed, but `getUsers` trims every
  cell it reads. A password with white space at either end, such as " pw ",
  is accepted at registration and can never log in
  (`GatewayUsers.UntrimmedPasswordNeverLogsIn`).
- `load_from_sheets` reads cells F..W as the eighteen hole scores. The save
  row puts six detail numbers per hole there (par, driver, wood/util, iron,
  putter, total). So a saved round's hole scores do not come back
  (`RoundSheet.LoadDoesNotRecoverHoleScores`).
- `get_user_by_email` stops at the first row whose email matches, and
  returns nothing when that row has only three cells, even if a later
  complete row matches (`UserTable.EmailLookupShadowed`).
- `getScores` always drops the first row as a header. The first score saved
  into a Score sheet without a header is never read back
  (`GatewayScores.FirstScoreWithoutHeaderIsLost`).

## Model

| member | source | states |
|---|---|---|
| GolfRounds.CreateRound | golf_score_manager.py:55-85 | a new round is well formed and consistent: one zero score, par 4 and a default detail per hole (par 4, driver, wood/util, iron and putter 0, total 4), for a non-negative hole count; total and handicap 0 |
| GolfRounds.AddScore | golf_score_manager.py:87-93 | a hole in 1..holes gets the score and the total stays the sum of the scores; any other hole leaves the round unchanged |
| GolfRounds.AddDetailedScore | golf_score_manager.py:95-111 | a valid hole gets the detail, whose total is driver + wood/util + iron + putter; the hole score becomes that total and the round total stays the sum; other holes change nothing |
| GolfRounds.CalculateHandicap | golf_score_manager.py:113-119 | the handicap is the larger of 0 and total minus par sum, and it is stored in the round |
| GolfRounds.RecordScores | example_usage.py:30-32 | entering a card hole by hole keeps the round well formed |
| GolfRounds.RecordScoresPlacesCard | example_usage.py:30-32 | the card lands in the first holes in order; later holes and par scores are untouched; the total is the sum |
| GolfRounds.FreshParTotal | golf_score_manager.py:81 | a new round's par sum is 4 per hole |
| GolfRounds.CardHandicap | example_usage.py:29-35 | after entering an 18-hole card, the handicap is max(0, card sum − 72) |
| GolfRounds.ExampleCardHandicap | example_usage.py:29-35 | the sample card totals 78 and gives handicap 6 |
| RoundSheet.HoleCells | golf_score_manager.py:137-145 | a hole is six number cells: par, driver, wood/util, iron, putter, total |
| RoundSheet.DetailCells | golf_score_manager.py:137-145 | the detail block has six cells per hole |
| RoundSheet.DetailCellsAt | golf_score_manager.py:137-145 | hole k's field j is at position 6k + j of the detail block |
| RoundSheet.SaveRow | golf_score_manager.py:128-145 | the saved row is date, player, course, total, handicap, then each hole's six cells in hole order |
| RoundSheet.SaveRowLength | golf_score_manager.py:128-145 | a well-formed round saves 5 + 6·holes cells |
| RoundSheet.HoleHeaders | golf_score_manager.py:178-183 | hole k's header j is "홀{k+1}_" plus the j-th field name |
| RoundSheet.Header | golf_score_manager.py:173-183 | the header has 113 cells: the five fixed names, then six per hole for 18 holes |
| RoundSheet.ColLetters | golf_score_manager.py:187-193 | the column name is upper-case letters and is empty exactly for 0 |
| RoundSheet.ColValueOfLetters | golf_score_manager.py:187-193 | the name produced for n reads back as column n |
| RoundSheet.ColLettersOfValue | golf_score_manager.py:187-193 | every letter-only name is the one produced for its column number, so names and numbers are in bijection |
| RoundSheet.NumToColLetters | golf_score_manager.py:187-193 | the loop computes the name of max(num, 0) |
| RoundSheet.ColLettersSamples | golf_score_manager.py:185-196 | 1 is A, 26 is Z, 27 is AA, and 113 is DI |
| RoundSheet.EnsureHeaders | golf_score_manager.py:161-205 | the header is written exactly when the first row is missing or empty, over range A1:DI1 |
| RoundSheet.DecodeRow | golf_score_manager.py:229-237 | a row of five or more cells keeps date, player and course; total and handicap are the digit-only cell value or 0; up to 18 cells from F are read the same way |
| RoundSheet.DecodeKept | golf_score_manager.py:228-238 | a row yields at most one round |
| RoundSheet.LoadRows | golf_score_manager.py:227-240 | never more rounds than rows |
| RoundSheet.LoadFromSheets | golf_score_manager.py:210-240 | an empty sheet loads nothing; otherwise at most one round per row below the header |
| RoundSheet.LoadRowsAppend | golf_score_manager.py:228-238 | decoding distributes over concatenation, so row order is kept |
| RoundSheet.LoadAppendedRow | golf_score_manager.py:148-154 | appending a row adds its decoded round at the end exactly when it has five cells |
| RoundSheet.DecodeSavedRow | golf_score_manager.py:128-145 | reading back a saved row gives the date, player, course and the non-negative part of total and handicap; hole cell i reads back detail field i |
| RoundSheet.SavedRowReadBack | golf_score_manager.py:148-154 | saving a round and then loading adds that decoded round at the end |
| RoundSheet.LoadDoesNotRecoverHoleScores | golf_score_manager.py:236 | a new eighteen-hole round's saved row reads back with eighteen hole scores whose first six are 4,0,0,0,0,4 (hole 1's par, four zero details and its total), while its own hole scores are 0 |
| RoundSheet.PlayerRounds | golf_score_manager.py:249 | the rounds kept are exactly those whose player name equals the given one |
| RoundSheet.PlayerRoundsAppend | golf_score_manager.py:249 | the filter keeps order and multiplicity: an appended round is appended to the player's rounds iff it is theirs |
| RoundSheet.Totals | golf_score_manager.py:255 | one total per round, in order |
| RoundSheet.PlayerTotals | golf_score_manager.py:249-255 | the player's totals are exactly the totals of rounds under that name |
| RoundSheet.NoPlayerRounds | golf_score_manager.py:251 | a player has no rounds iff no round names them |
| RoundSheet.StatisticsOf | golf_score_manager.py:246-271 | the no-rounds message iff no round names the player; otherwise the count, the sum, and best/worst attained by some round and bounding all of them; the last five totals |
| RoundSheet.PlayerStatistics | golf_score_manager.py:246-271 | the statistics are those of the player's rounds among the loaded rows; an empty sheet gives the message; the count never exceeds the data rows, and best ≤ worst with both non-negative |
| GatewayInit.ClassifyInitError | static/js/google-sheets-api.js:96-125 | CORS class iff a CORS phrase or status 0; network class iff not CORS and a network word; otherwise generic with the raw message |
| GatewayInit.CorsPhraseWins | static/js/google-sheets-api.js:104-111 | a message containing "CORS" is CORS class whatever else it contains |
| GatewayInit.StatusZeroIsCors | static/js/google-sheets-api.js:108 | status 0 alone makes an error CORS class |
| GatewayInit.FetchIsNetwork | static/js/google-sheets-api.js:115-120 | a non-CORS message containing "fetch" is a network problem |
| GatewayInit.ShortMessageIsGeneric | static/js/google-sheets-api.js:122-125 | a message shorter than every marker word, with status other than 0, is a generic failure |
| GatewayInit.Poll | static/js/google-sheets-api.js:39-57 | polling stops at the first check that sees gapi.load, or gives up after 50 re-polls with every check failing |
| GatewayInit.StartInit | static/js/google-sheets-api.js:20-57 | a missing script is rejected at once; otherwise the first ready check among the 51 wins; a timeout happens iff none is ready |
| GatewayInit.FirstReadyCheckWins | static/js/google-sheets-api.js:32-57 | if check k ≤ 50 is the first ready one, loading starts at check k |
| GatewayInit.LateScriptTimesOut | static/js/google-sheets-api.js:46-55 | a script ready only after check 50 ends in a timeout after 50 re-polls |
| GatewayInit.Init | static/js/google-sheets-api.js:20-125 | init succeeds iff loading starts and client init succeeds; the rejection is the missing script, the timeout, or the classified error |
| GatewayUsers.RowUserTrimmed | static/js/google-sheets-api.js:313-320 | every field of a row's user is already trimmed; username, email and password are no longer than their cells |
| GatewayUsers.ParseRows | static/js/google-sheets-api.js:312-322 | one user per row, each the row's six cells trimmed |
| GatewayUsers.KeepUsable | static/js/google-sheets-api.js:323 | the kept users are the ones with a username and an email, in order, and none is dropped |
| GatewayUsers.KeepUsableAppend | static/js/google-sheets-api.js:323 | filtering distributes over concatenation |
| GatewayUsers.DataRows | static/js/google-sheets-api.js:305-309 | the first row is dropped iff it is a header ("username", "Username" or "사용자명") |
| GatewayUsers.GetUsers | static/js/google-sheets-api.js:286-331 | a failed read or an empty sheet gives no users; otherwise the usable trimmed users of the data rows |
| GatewayUsers.GetUsersTrimmed | static/js/google-sheets-api.js:314-323 | every returned user has a non-empty username and email, already trimmed |
| GatewayUsers.GetUsersAppend | static/js/google-sheets-api.js:286-331 | appending a row adds exactly its user, when usable, at the end |
| GatewayUsers.Taken | static/js/google-sheets-api.js:235-236 | true iff some user's username (or email) is exactly the given one |
| GatewayUsers.RegisterUser | static/js/google-sheets-api.js:220-282 | refused without Google sign-in; refused on a taken username, checked before email; refused on a taken email; otherwise the six-cell row with the Google id and name |
| GatewayUsers.MatchesLogin | static/js/google-sheets-api.js:355-358 | an exact non-empty username or email always matches; a match has the input's length, since lower-casing keeps length |
| GatewayUsers.FindLogin | static/js/google-sheets-api.js:355-358 | the index of the first user whose non-empty username or email equals the input ignoring case; none iff no user matches |
| GatewayUsers.LoginUser | static/js/google-sheets-api.js:335-389 | refused without Google sign-in or users; not found iff no match; for the first match: no password iff its password is empty, wrong password iff it is non-empty and differs, and a non-empty equal password logs in, returning username, username, email |
| GatewayUsers.LoginPasswordExact | static/js/google-sheets-api.js:366-374 | a successful login fails with any other password, however the username is cased |
| GatewayUsers.FindLoginRespectsCase | static/js/google-sheets-api.js:355-358 | inputs equal after lower-casing find the same user |
| GatewayUsers.FindLoginAppended | static/js/google-sheets-api.js:355-358 | an appended user is found when no earlier user matches |
| GatewayUsers.LoginAppended | static/js/google-sheets-api.js:335-385 | an appended user with a password logs in by username when no earlier user matches |
| GatewayUsers.RegisterThenLogin | static/js/google-sheets-api.js:220-385 | after a registration's row is appended, logging in with the same username and password returns the new user |
| GatewayUsers.CaseOnlyDuplicateCannotLogInByUsername | static/js/google-sheets-api.js:235-244 | "alice" can register beside "Alice" but cannot log in by username with its own password |
| GatewayUsers.CaseOnlyDuplicateLogsInByEmail | static/js/google-sheets-api.js:355-385 | the same "alice" logs in by its own email |
| GatewayUsers.UntrimmedPasswordNeverLogsIn | static/js/google-sheets-api.js:312-370 | a typed password with white space at either end never logs in, because every password read back is trimmed |
| GatewayUsers.GetUsersPasswordsTrimmed | static/js/google-sheets-api.js:312-321 | every password getUsers returns is already trimmed |
| GatewayScores.ScoreRow | static/js/google-sheets-api.js:400-412 | date, Google name and email (placeholders when empty), course, total or 0, then the given hole scores, or 18 zeros when none are given |
| GatewayScores.SaveScore | static/js/google-sheets-api.js:393-429 | refused iff not signed in; otherwise appends the score row |
| GatewayScores.RecordOf | static/js/google-sheets-api.js:452-463 | the record keeps the first four cells and reads total and holes F..W with parseInt or 0; its id is "score_" plus the position |
| GatewayScores.ScoreRows | static/js/google-sheets-api.js:449-465 | every row of five cells yields its record at its position, and every record comes from a row of five cells at its own position |
| GatewayScores.ScoreRowsAppendOne | static/js/google-sheets-api.js:451-464 | one more row adds exactly its record, numbered by its position, when it has five cells and nothing otherwise, so records follow sheet order one per long row |
| GatewayScores.GetScores | static/js/google-sheets-api.js:433-472 | nothing without sign-in, on a failed read, or with at most one row; otherwise the records of the rows below the first, numbered from 1 |
| GatewayScores.SavedRowHead | static/js/google-sheets-api.js:405-410 | the date, name, email, course and total read back are the ones saved |
| GatewayScores.SavedRowHoles | static/js/google-sheets-api.js:411 | the hole scores read back are the saved ones, up to the eighteenth |
| GatewayScores.HoleReadBack | static/js/google-sheets-api.js:462 | a number cell parses back to its number |
| GatewayScores.RecordOfSavedRow | static/js/google-sheets-api.js:400-463 | the record read from a saved row is the saved data |
| GatewayScores.SaveThenGetScores | static/js/google-sheets-api.js:393-472 | below a header, saving then reading adds exactly that record at the end |
| GatewayScores.FirstScoreWithoutHeaderIsLost | static/js/google-sheets-api.js:446-449 | a first score saved into a sheet with no header is not read back |
| GatewayScores.Summarize | static/js/google-sheets-api.js:479-499 | all zeros for no rounds; otherwise the count, best and worst attained and bounding every total, and Math.round of the mean |
| GatewayScores.Totals | static/js/google-sheets-api.js:488 | one total per record, in order |
| GatewayScores.GetStatistics | static/js/google-sheets-api.js:476-509 | the summary of the totals of what getScores returns: zeros when it is empty; otherwise count, rounded mean, best and worst as in Summarize |
| GatewayScores.SummarizeThreeRounds | static/js/google-sheets-api.js:488-492 | totals 72, 80, 68 give 3 rounds, average 73, best 68, worst 80 |
| GatewayScores.SummarizeRoundsHalfUp | static/js/google-sheets-api.js:490 | a mean of 71.5 is reported as 72 |
| UserTable.EnsureUserHeaders | user_manager.py:73-96 | the header is written iff the first row is missing or empty; it is the six names user_id, username, email, password_hash, created_at, last_login in that order, the columns the lookups read |
| UserTable.HashPassword | user_manager.py:98-102 | the stored value is the hex salt, a colon and the hex digest, splitting at ':' into exactly those two parts |
| UserTable.VerifyPassword | user_manager.py:104-111 | a stored value verifies iff it is some colon-free salt, a colon and the hex digest of the password under that salt |
| UserTable.StoredHashForm | user_manager.py:104-111 | splitting into two parts with the second the digest of the first is the same as being salt:digest |
| UserTable.VerifyOwnHash | user_manager.py:104-111 | a password verifies against its own hash |
| UserTable.VerifyHashIff | user_manager.py:104-111 | another password verifies iff the key derivation gives the same digest |
| UserTable.VerifyNeedsColon | user_manager.py:104-111 | a stored value without ':' never verifies |
| UserTable.VerifyRejectsTwoColons | user_manager.py:104-111 | a stored value with two colons never verifies |
| UserTable.DataRows | user_manager.py:187-189 | the rows below the header, in order |
| UserTable.DataRowsAppend | user_manager.py:131-137 | appending a row appends a data row |
| UserTable.FirstMatch | user_manager.py:189-190 | the first long-enough row whose key column equals the key; none iff no row matches |
| UserTable.FirstMatchAppended | user_manager.py:189-190 | an appended matching row is found when no earlier row matches |
| UserTable.FirstMatchReplaced | user_manager.py:282-283 | a row replaced by a matching row is found when no earlier row matches |
| UserTable.RecordOf | user_manager.py:191-198 | id, username, email and hash from the first four cells; created and last-login times or "" |
| UserTable.Lookup | user_manager.py:174-204 | the record of the first matching data row, if any |
| UserTable.GetUserByUsername | user_manager.py:174-204 | the first data row of four or more cells with this username, if any |
| UserTable.GetUserByEmail | user_manager.py:206-235 | the record of the first data row of three or more cells with this email; nothing when that row is shorter than four cells |
| UserTable.GetUserById | user_manager.py:237-266 | the record of the first non-empty data row with this id; nothing when there is none or that row is shorter than four cells |
| UserTable.EmailLookupShadowed | user_manager.py:220-231 | a three-cell row hides a later complete row with the same email |
| UserTable.RegisterUser | user_manager.py:113-143 | rejected with the username message when the username exists, else with the email message when the email exists; otherwise appends id, username, email, salted hash, time and "" |
| UserTable.RegisterThenLookup | user_manager.py:113-204 | after a registration, the username lookup returns the new record |
| UserTable.AppendThenLookup | user_manager.py:174-204 | an appended row with a fresh username is found by that username |
| UserTable.UpdateLastLogin | user_manager.py:268-296 | writes column F of sheet row k+2 for the first data row k with the id; no write when no row has it |
| UserTable.SetCell | user_manager.py:282-292 | a cell update sets that column, keeps the others and pads with "" |
| UserTable.ApplyLastLogin | user_manager.py:282-292 | the write changes only its target row |
| UserTable.RecordOfSetLastLogin | user_manager.py:282-292 | after the write the record differs only in its last-login time |
| UserTable.LastLoginTargetsUserRow | user_manager.py:268-296 | the write lands on the user's own row, and reading that user back shows the new time |
| UserTable.AuthenticateUser | user_manager.py:148-169 | success iff the username exists and the password verifies; every failure carries the same message |
| UserTable.RegisterThenAuthenticate | user_manager.py:113-169 | after a registration, the same username and password authenticate |
| UserTable.ListRows | user_manager.py:314-322 | every row of four or more cells is listed without its hash, and every listed user comes from such a row; never more users than rows |
| UserTable.ListRowsAppend | user_manager.py:314-322 | listing distributes over concatenation |
| UserTable.GetAllUsers | user_manager.py:301-324 | an empty sheet lists nobody; otherwise the rows below the header |
| UserTable.FoundUserIsListed | user_manager.py:174-324 | a user found by username appears in the full listing |
| Text.ShowInt | golf_score_manager.py:132-133 | the decimal rendering of a number cell: "-" only for negatives, then digits |
| Text.DigitCellOfShowInt | golf_score_manager.py:234-236 | a rendered number reads back through `isdigit` as itself when non-negative, else 0 |
| Text.DigitCellValue | golf_score_manager.py:234-236 | a cell of ASCII digits reads as its value, anything else as 0 |
| Text.ParseInt | static/js/google-sheets-api.js:461-462 | NaN exactly when no digit follows the leading white space and optional sign |
| Text.ParseIntDigitsThenText | static/js/google-sheets-api.js:461-462 | parseInt reads a leading digit run and ignores what follows the first non-digit |
| Text.ParseShowInt | static/js/google-sheets-api.js:461-462 | parseInt of a rendered integer is that integer |
| Text.TrimSpec | static/js/google-sheets-api.js:314-319 | trim removes exactly the leading and trailing white space, leaving an inner slice that starts and ends with a non-space character |
| Text.TrimIdempotent | static/js/google-sheets-api.js:314-319 | trimming twice is trimming once |
| Text.ToLowerIdempotent | static/js/google-sheets-api.js:356-357 | lower-casing twice is lower-casing once |
| Text.JoinSplit | user_manager.py:106 | splitting at ':' and joining with ':' gives the string back |
| Text.HexInjective | user_manager.py:102 | distinct byte strings have distinct hex renderings |
| Text.HexHasNoColon | user_manager.py:102 | a hex rendering contains no ':' |
| Text.Contains | static/js/google-sheets-api.js:104-118 | a string includes only substrings no longer than itself |
| Text.ContainsIffOccurs | static/js/google-sheets-api.js:104-118 | includes holds iff the substring occurs at some position |
| Numbers.RoundedMean | static/js/google-sheets-api.js:490 | Math.round of sum/count: the m with m ≤ sum/count + 1/2 < m + 1 |
| Numbers.RoundedMeanWithinRange | static/js/google-sheets-api.js:490-492 | the rounded mean lies between the least and the greatest total |

## Left out

- Google authentication and OAuth (`_authenticate`, `signIn`, `signOut`, `getCurrentUser`) are out of scope. The signed-in account is an `Option<GoogleUser>` input.
- The Sheets API calls themselves are not modelled. Reads are inputs and writes are outputs. `USER_ENTERED` reformatting (numbers, dates) is not modelled; a cell reads back as its plain rendering.
- `HttpError` and other exceptions are left out. `save_to_sheets` and `_ensure_headers` only log them. `load_from_sheets` returns `[]` on one, which the model does not represent: `RoundSheet.LoadFromSheets` takes a successful read. `register_user` and `authenticate_user` turn an exception into a failure result with an error message; the lookups and `get_all_users` return `None` or `[]`; none of these paths is modelled. The browser gateway's failed reads are modelled as `None`.
- `user_manager.py` reads the range `Member!A1:F1000`, so rows after the 1000th are never seen. The model reads the whole sheet.
- RoundSheet.SavedRowReadBack: `load_from_sheets` reads the range `A1:Z1000`, so once the sheet holds 1000 rows a newly saved row is not read back. The model reads every row, so this lemma and `RoundSheet.LoadAppendedRow` hold only for sheets of fewer than 1000 rows before the append. The column limit Z does not matter: the loader reads only columns A to W.
- RoundSheet.LoadAppendedRow: the same 1000-row limit applies; the lemma holds only while the sheet has fewer than 1000 rows before the append.
- The clock (`datetime.now`, `new Date()`) is a parameter. The salt and the user id come from `secrets.token_hex(16)`; the model takes their sixteen random bytes as the parameters `salt` and `idBytes` and renders them with `Text.Hex`.
- PBKDF2-HMAC-SHA256 with 100000 iterations is the parameter `kdf`. Only how its output is stored and compared is modelled.
- `init` in `GatewayInit.Poll` and `GatewayInit.StartInit` has no timer. The 100 ms delay and the progress log every tenth attempt are dropped; a check is a step.
- The Sheets API loading failure after a successful client init is only logged by the source, so it is not an input.
- `GatewayScores.Summarize`: `Math.round(sum / n)` is modelled on the exact rational quotient. Floating-point error in the division is not modelled.
- `RoundSheet.StatisticsOf`: it returns the score sum and the last five totals rather than `round(x, 1)` of their means, because the rounding is floating point.
- `Text.ToLower` maps only the ASCII letters A–Z; JavaScript's full Unicode case mapping is not modelled. `Text.Trim` strips only ASCII white space, not every Unicode space character.
- `Text.ParseInt` reads an optional sign and leading decimal digits after leading white space. The `0x` hexadecimal prefix is not modelled. JavaScript numbers are IEEE doubles, while the model returns an exact integer: the two agree only for magnitudes up to 2^53. A longer digit run is rounded by JavaScript (`parseInt("9007199254740993")` is 9007199254740992) or becomes `Infinity`.
- Text.ParseShowInt: it holds for every integer, while JavaScript's `parseInt` gives back the rendered integer only when its magnitude is at most 2^53. The same bound applies to `GatewayScores.HoleReadBack` and `GatewayScores.SaveThenGetScores`. The scores the gateway writes are JavaScript numbers, so for them the read-back holds.
- `display_round_summary`, the Flask routes in `app.py`, the UI scripts `app.js` and `app-github-pages.js`, and the JS mode detection (`isGitHubPages`) are not part of this model.
- RoundSheet.DecodeRow: a cell counts as a number only when it is ASCII digits. Python's `isdigit` also accepts other Unicode digits: `int` reads full-width digits, and a superscript digit such as "²" makes `int` raise. Those cells are outside the model, which reads them as 0.
- UserTable.LastLoginTargetsUserRow: `update_last_login` writes to the unqualified range `F{i}`, and the Sheets API applies that to the spreadsheet's first visible sheet. The lemma, like `UserTable.ApplyLastLogin`, applies the write to the Member sheet, so it holds only when Member is the first visible sheet.

=== FILE: cells.dfy ===
/** Spreadsheet cells. The data-access classes write rows that mix strings
    and numbers and read rows back as strings; `Render` is the string a
    later read returns for a written cell. */
module Cells {
  import opened Text

  datatype Cell = Str(s: string) | Num(n: int)

  /** The string a read returns for a written cell: strings come back
      verbatim, numbers in plain decimal. */
  function Render(c: Cell): string {
    match c
    case Str(s) => s
    case Num(n) => ShowInt(n)
  }

  function RenderRow(row: seq<Cell>): (r: seq<string>)
    ensures |r| == |row|
    ensures forall i :: 0 <= i < |row| ==> r[i] == Render(row[i])
  {
    seq(|row|, i requires 0 <= i < |row| => Render(row[i]))
  }

  /** A cell of a row as read, or the empty string past the row's end
      (JavaScript's `row[i] || ''`, Python's `row[i] if len(row) > i else ''`):
      reads drop trailing empty cells. */
  function CellOrEmpty(row: seq<string>, i: nat): (c: string)
    ensures i < |row| ==> c == row[i]
    ensures i >= |row| ==> c == ""
  {
    if i < |row| then row[i] else ""
  }
}

=== FILE: gateway_init.dfy ===
/** The start-up decisions of `GoogleSheetsAPI` (static/js/google-sheets-api.js):
    waiting for the Google API script to expose `gapi.load`, and classifying
    a failed client initialisation by the words in its error message. Time
    is a count of readiness checks; the checks themselves are an input. */
module GatewayInit {
  import opened Wrappers
  import opened Text

  // ---------------------------------------------------------------- error classes

  /** A client initialisation error: its message text (`error.message`,
      or the error's string form) and its HTTP status, when it has one. */
  datatype ClientError = ClientError(message: string, status: Option<int>)

  /** Why `init` rejected. */
  datatype InitFailure =
    | ScriptNotLoaded       // `window.gapi` absent at the start
    | LoadTimeout           // `gapi.load` never appeared while polling
    | CorsBlocked           // a cross-origin failure: use offline mode
    | NetworkProblem        // a connectivity failure: retry
    | ClientInitFailed(detail: string)  // anything else, carrying the raw message

  /** The CORS-class test: one of four phrases in the message, or status 0. */
  predicate IsCorsError(e: ClientError) {
    || Contains(e.message, "CORS")
    || Contains(e.message, "Cross-Origin")
    || Contains(e.message, "blocked")
    || Contains(e.message, "response header")
    || e.status == Some(0)
  }

  /** The network-class test: one of three words in the message. */
  predicate IsNetworkError(e: ClientError) {
    || Contains(e.message, "network")
    || Contains(e.message, "fetch")
    || Contains(e.message, "timeout")
  }

  /** `loadClient`'s catch block: CORS-class first, then network-class,
      otherwise a generic failure. Exactly one class applies to every error. */
  function ClassifyInitError(e: ClientError): (f: InitFailure)
    ensures f.CorsBlocked? <==> IsCorsError(e)
    ensures f.NetworkProblem? <==> !IsCorsError(e) && IsNetworkError(e)
    ensures f.ClientInitFailed? <==> !IsCorsError(e) && !IsNetworkError(e)
    ensures f.ClientInitFailed? ==> f.detail == e.message
    ensures !f.ScriptNotLoaded? && !f.LoadTimeout?
  {
    if IsCorsError(e) then CorsBlocked
    else if IsNetworkError(e) then NetworkProblem
    else ClientInitFailed(e.message)
  }

  /** A message with "CORS" in it is CORS-class whatever else it says, even
      when it also names a network word. */
  lemma CorsPhraseWins(before: string, after: string, status: Option<int>)
    ensures ClassifyInitError(ClientError(before + "CORS" + after, status)) == CorsBlocked
  {
    var m := before + "CORS" + after;
    assert m[|before|..|before| + 4] == "CORS";
    assert OccursAt(m, "CORS", |before|);
    ContainsIffOccurs(m, "CORS");
  }

  /** Status 0 alone makes an error CORS-class. */
  lemma StatusZeroIsCors(message: string)
    ensures ClassifyInitError(ClientError(message, Some(0))) == CorsBlocked
  {
  }

  /** A message naming "fetch" that is not CORS-class is a network problem. */
  lemma FetchIsNetwork(before: string, after: string, status: Option<int>)
    requires !IsCorsError(ClientError(before + "fetch" + after, status))
    ensures ClassifyInitError(ClientError(before + "fetch" + after, status)) == NetworkProblem
  {
    var m := before + "fetch" + after;
    assert m[|before|..|before| + 5] == "fetch";
    assert OccursAt(m, "fetch", |before|);
    ContainsIffOccurs(m, "fetch");
  }

  /** A message shorter than every marker word and with a non-zero status is
      generic. */
  lemma ShortMessageIsGeneric(message: string, status: Option<int>)
    requires |message| < 4 && status != Some(0)
    ensures ClassifyInitError(ClientError(message, status)) == ClientInitFailed(message)
  {
  }

  // ---------------------------------------------------------------- readiness polling

  /** How many times `init` re-schedules its readiness check. */
  const MaxAttempts: nat := 50

  /** Where the wait for the API script ends. */
  datatype StartOutcome =
    | ScriptMissing                 // no `window.gapi` at all
    | ClientLoading(check: nat)     // `gapi.load` seen at this check; `loadClient` runs
    | TimedOut(repolls: nat)        // gave up after this many re-polls

  /** The polling step: check number `attempts` (0-based) finds `gapi.load`
      or, while fewer than 50 re-polls were made, schedules the next check;
      otherwise it gives up. `ready(k)` says whether the k-th check sees
      `window.gapi.load`. */
  function Poll(ready: nat -> bool, attempts: nat): (o: StartOutcome)
    requires attempts <= MaxAttempts
    ensures o.ClientLoading? ==>
      && attempts <= o.check <= MaxAttempts && ready(o.check)
      && forall k :: attempts <= k < o.check ==> !ready(k)
    ensures o.TimedOut? ==>
      o.repolls == MaxAttempts && forall k :: attempts <= k <= MaxAttempts ==> !ready(k)
    ensures !o.ScriptMissing?
    decreases MaxAttempts - attempts
  {
    if ready(attempts) then ClientLoading(attempts)
    else if attempts < MaxAttempts then Poll(ready, attempts + 1)
    else TimedOut(attempts)
  }

  /** `init`'s wait for the Google API script: reject at once when the
      script is missing, go straight on when `gapi.load` is already there,
      and otherwise poll. Check 0 is the immediate one. */
  function StartInit(scriptLoaded: bool, ready: nat -> bool): (o: StartOutcome)
    ensures !scriptLoaded <==> o.ScriptMissing?
    ensures o.ClientLoading? ==>
      && o.check <= MaxAttempts && ready(o.check)
      && forall k :: 0 <= k < o.check ==> !ready(k)
    ensures o.TimedOut? ==> o.repolls == MaxAttempts
    ensures o.TimedOut? <==> scriptLoaded && forall k :: 0 <= k <= MaxAttempts ==> !ready(k)
  {
    if !scriptLoaded then ScriptMissing
    else if ready(0) then ClientLoading(0)
    else Poll(ready, 0)
  }

  /** The check at which polling stops is the first check that sees
      `gapi.load`, whenever one of the 51 checks does. */
  lemma FirstReadyCheckWins(ready: nat -> bool, k: nat)
    requires k <= MaxAttempts && ready(k)
    requires forall j :: 0 <= j < k ==> !ready(j)
    ensures StartInit(true, ready) == ClientLoading(k)
  {
  }

  /** A script that becomes usable only after the last check is never
      used: init times out. */
  lemma LateScriptTimesOut()
    ensures StartInit(true, k => k > MaxAttempts) == TimedOut(50)
  {
  }

  /** The outcome of `init` as a whole. */
  datatype InitResult = Initialized | InitRejected(failure: InitFailure)

  /** `init`: wait for the script, then run `loadClient`, whose
      `gapi.client.init` call either succeeds (`clientError` is `None`) or
      fails with a classified error. A failure to load the Sheets API
      after a successful client init is ignored by the source, so it is
      not an input here. */
  function Init(scriptLoaded: bool, ready: nat -> bool, clientError: Option<ClientError>): (r: InitResult)
    ensures r == Initialized <==> StartInit(scriptLoaded, ready).ClientLoading? && clientError.None?
    ensures !scriptLoaded ==> r == InitRejected(ScriptNotLoaded)
    ensures r == InitRejected(LoadTimeout) <==> StartInit(scriptLoaded, ready).TimedOut?
    ensures StartInit(scriptLoaded, ready).ClientLoading? && clientError.Some? ==>
      r == InitRejected(ClassifyInitError(clientError.value))
  {
    match StartInit(scriptLoaded, ready)
    case ScriptMissing => InitRejected(ScriptNotLoaded)
    case TimedOut(_) => InitRejected(LoadTimeout)
    case ClientLoading(_) =>
      if clientError.None? then Initialized else InitRejected(ClassifyInitError(clientError.value))
  }
}

=== FILE: gateway_scores.dfy ===
/** The Score table as `GoogleSheetsAPI` (static/js/google-sheets-api.js)
    uses it: the row `saveScore` appends, the records `getScores` reads
    back, and the summary `getStatistics` computes from them. Columns are
    date, player name, email, course, total, then up to eighteen hole
    scores (A to W). */
module GatewayScores {
  import opened Wrappers
  import opened Text
  import opened Numbers
  import opened Sequences
  import opened Cells
  import opened GatewayUsers

  /** The fields of the object passed to `saveScore`; `None` is an absent
      (or falsy) field. */
  datatype ScoreData = ScoreData(
    course: Option<string>,
    totalScore: Option<int>,
    detailedScores: Option<seq<int>>)

  /** The number of hole columns (F to W) and the default card of zeros. */
  const HoleColumns: nat := 18
  const FirstHoleColumn: nat := 5
  const LastColumnEnd: nat := 23

  const UnknownName := "Unknown User"
  const UnknownEmail := "unknown@example.com"

  /** `value || fallback` for a string: the empty string is falsy. */
  function OrDefault(value: string, fallback: string): (r: string)
    ensures value != "" ==> r == value
    ensures value == "" ==> r == fallback
  {
    if value == "" then fallback else value
  }

  // ---------------------------------------------------------------- saveScore

  /** The row `saveScore` appends: date, the Google name and email (with
      placeholders when empty), course, total, then the given hole scores
      or eighteen zeros when none were given. An empty list of hole
      scores is kept as it is. */
  function ScoreRow(user: GoogleUser, today: string, data: ScoreData): (row: seq<Cell>)
    ensures |row| == FirstHoleColumn + (if data.detailedScores.Some? then |data.detailedScores.value| else HoleColumns)
    ensures row[..FirstHoleColumn] == [Str(today), Str(OrDefault(user.name, UnknownName)),
      Str(OrDefault(user.email, UnknownEmail)), Str(data.course.ValueOr("")), Num(data.totalScore.ValueOr(0))]
    ensures data.detailedScores.Some? ==> forall k :: 0 <= k < |data.detailedScores.value| ==>
      row[FirstHoleColumn + k] == Num(data.detailedScores.value[k])
    ensures data.detailedScores.None? ==> forall k :: FirstHoleColumn <= k < |row| ==> row[k] == Num(0)
  {
    var holes := SavedHoles(data);
    [Str(today), Str(OrDefault(user.name, UnknownName)), Str(OrDefault(user.email, UnknownEmail)),
     Str(data.course.ValueOr("")), Num(data.totalScore.ValueOr(0))] + Map(x => Num(x), holes)
  }

  datatype SaveOutcome = SaveNeedsGoogle | Appended(row: seq<Cell>)

  /** `saveScore`: refused without a signed-in Google account; otherwise
      the row to append. `today` is the ISO date of the clock. */
  function SaveScore(google: Option<GoogleUser>, today: string, data: ScoreData): (r: SaveOutcome)
    ensures google.None? <==> r == SaveNeedsGoogle
    ensures google.Some? ==> r == Appended(ScoreRow(google.value, today, data))
  {
    match google
    case None => SaveNeedsGoogle
    case Some(user) => Appended(ScoreRow(user, today, data))
  }

  // ---------------------------------------------------------------- getScores

  datatype ScoreRecord = ScoreRecord(
    id: string,
    date: string,
    playerName: string,
    email: string,
    courseName: string,
    totalScore: int,
    detailedScores: seq<int>)

  /** The end of the hole-score cells of a row: column W at most. */
  function HoleCellsEnd(row: seq<string>): nat {
    if |row| < LastColumnEnd then |row| else LastColumnEnd
  }

  /** Whether `getScores` reads a row: it needs the first five cells. */
  predicate LongEnough(row: seq<string>) {
    |row| >= FirstHoleColumn
  }

  /** The record for the data row at 1-based `position`; missing cells
      read as empty strings, and a row that stops before column F has no
      hole scores. */
  function RecordOf(row: seq<string>, position: nat): (rec: ScoreRecord)
    ensures rec.id == "score_" + ShowNat(position)
    ensures LongEnough(row) ==>
      && rec.date == row[0] && rec.playerName == row[1] && rec.email == row[2] && rec.courseName == row[3]
      && rec.totalScore == ParseIntOrZero(row[4])
      && |rec.detailedScores| == HoleCellsEnd(row) - FirstHoleColumn <= HoleColumns
      && forall k :: 0 <= k < |rec.detailedScores| ==>
           rec.detailedScores[k] == ParseIntOrZero(row[FirstHoleColumn + k])
  {
    var id := "score_" + ShowNat(position);
    if LongEnough(row) then
      ScoreRecord(id, row[0], row[1], row[2], row[3], ParseIntOrZero(row[4]),
        Map(ParseIntOrZero, row[FirstHoleColumn..HoleCellsEnd(row)]))
    else
      ScoreRecord(id, CellOrEmpty(row, 0), CellOrEmpty(row, 1), CellOrEmpty(row, 2),
        CellOrEmpty(row, 3), ParseIntOrZero(CellOrEmpty(row, 4)), [])
  }

  /** Data rows from 1-based `position` on: rows with fewer than five cells
      are skipped but still use up a position. */
  function ScoreRows(rows: seq<seq<string>>, position: nat): (recs: seq<ScoreRecord>)
    ensures |recs| <= |rows|
    ensures forall i :: 0 <= i < |rows| && LongEnough(rows[i]) ==> RecordOf(rows[i], position + i) in recs
    ensures forall r :: r in recs ==>
      exists i :: 0 <= i < |rows| && LongEnough(rows[i]) && r == RecordOf(rows[i], position + i)
    ensures (forall i :: 0 <= i < |rows| ==> !LongEnough(rows[i])) ==> recs == []
  {
    CollectIndexedKeeps(LongEnough, RecordOf, rows, position);
    CollectIndexedOnlyKept(LongEnough, RecordOf, rows, position);
    if forall i :: 0 <= i < |rows| ==> !LongEnough(rows[i]) then
      CollectIndexedNone(LongEnough, RecordOf, rows, position);
      CollectIndexed(LongEnough, RecordOf, rows, position)
    else CollectIndexed(LongEnough, RecordOf, rows, position)
  }

  /** Appending one row adds exactly its record, numbered by its position,
      when it has five cells, and nothing otherwise: one record per long
      row, in sheet order. */
  lemma ScoreRowsAppendOne(rows: seq<seq<string>>, row: seq<string>, position: nat)
    ensures ScoreRows(rows + [row], position)
      == ScoreRows(rows, position) + (if LongEnough(row) then [RecordOf(row, position + |rows|)] else [])
  {
    CollectIndexedAppend(LongEnough, RecordOf, rows, [row], position);
    assert [row][1..] == [];
  }

  /** `getScores`: nothing without a signed-in Google account or when the
      read fails; nothing when the sheet holds at most its header row;
      otherwise the records of the rows below the header. */
  function GetScores(google: Option<GoogleUser>, read: Option<seq<seq<string>>>): (scores: seq<ScoreRecord>)
    ensures google.None? || read.None? ==> scores == []
    ensures read.Some? && |read.value| <= 1 ==> scores == []
    ensures google.Some? && read.Some? && |read.value| > 1 ==> scores == ScoreRows(read.value[1..], 1)
  {
    if google.None? || read.None? then []
    else if |read.value| <= 1 then []
    else ScoreRows(read.value[1..], 1)
  }

  /** The hole scores of a saved row: the given list, or eighteen zeros. */
  function SavedHoles(data: ScoreData): seq<int> {
    data.detailedScores.ValueOr(seq(HoleColumns, _ => 0))
  }

  /** `n` capped at the eighteen hole columns. */
  function CapHoles(n: nat): (m: nat)
    ensures m <= HoleColumns && m <= n && (n <= HoleColumns ==> m == n)
  {
    if n < HoleColumns then n else HoleColumns
  }

  /** The first five fields read back from a saved row are the ones written. */
  lemma SavedRowHead(user: GoogleUser, today: string, data: ScoreData, position: nat)
    ensures var rec := RecordOf(RenderRow(ScoreRow(user, today, data)), position);
      && rec.date == today
      && rec.playerName == OrDefault(user.name, UnknownName)
      && rec.email == OrDefault(user.email, UnknownEmail)
      && rec.courseName == data.course.ValueOr("")
      && rec.totalScore == data.totalScore.ValueOr(0)
  {
    var cells := ScoreRow(user, today, data);
    assert cells[..FirstHoleColumn][4] == cells[4];
    assert cells[..FirstHoleColumn][0] == cells[0];
    ParseShowInt(data.totalScore.ValueOr(0));
  }

  /** The hole scores read back from a saved row are the ones written, up
      to the eighteenth (the row being read up to column W). */
  lemma SavedRowHoles(user: GoogleUser, today: string, data: ScoreData, position: nat)
    ensures RecordOf(RenderRow(ScoreRow(user, today, data)), position).detailedScores
      == SavedHoles(data)[..CapHoles(|SavedHoles(data)|)]
  {
    var cells := ScoreRow(user, today, data);
    var row := RenderRow(cells);
    var holes := SavedHoles(data);
    var n := CapHoles(|holes|);
    var got := RecordOf(row, position).detailedScores;
    assert |got| == n by {
      assert LongEnough(row) && HoleCellsEnd(row) - FirstHoleColumn == n;
    }
    forall k | 0 <= k < n
      ensures got[k] == holes[..n][k]
    {
      HoleReadBack(cells, holes, k);
    }
  }

  /** One hole cell written as a number reads back as that number. */
  lemma HoleReadBack(cells: seq<Cell>, holes: seq<int>, k: nat)
    requires |cells| == FirstHoleColumn + |holes| && k < |holes|
    requires cells[FirstHoleColumn + k] == Num(holes[k])
    ensures ParseIntOrZero(RenderRow(cells)[FirstHoleColumn + k]) == holes[k]
  {
    ParseShowInt(holes[k]);
  }

  /** The record read back from a saved row carries what was saved: the
      date, the Google name and email or their placeholders, the course,
      the total, and the hole scores up to the eighteenth. */
  lemma RecordOfSavedRow(user: GoogleUser, today: string, data: ScoreData, position: nat)
    ensures
      RecordOf(RenderRow(ScoreRow(user, today, data)), position)
        == ScoreRecord("score_" + ShowNat(position), today, OrDefault(user.name, UnknownName),
             OrDefault(user.email, UnknownEmail), data.course.ValueOr(""), data.totalScore.ValueOr(0),
             SavedHoles(data)[..CapHoles(|SavedHoles(data)|)])
  {
    SavedRowHead(user, today, data, position);
    SavedRowHoles(user, today, data, position);
  }

  /** Saving a score below an existing header and reading the sheet back
      adds exactly one record at the end, numbered by the row's position
      below the header. */
  lemma SaveThenGetScores(user: GoogleUser, rows: seq<seq<string>>, today: string, data: ScoreData)
    requires rows != []
    ensures
      var row := RenderRow(ScoreRow(user, today, data));
      GetScores(Some(user), Some(rows + [row])) == GetScores(Some(user), Some(rows)) + [RecordOf(row, |rows|)]
  {
    var row := RenderRow(ScoreRow(user, today, data));
    var all := rows + [row];
    assert all[1..] == rows[1..] + [row];
    CollectIndexedAppend(LongEnough, RecordOf, rows[1..], [row], 1);
    assert LongEnough(row);
    assert CollectIndexed(LongEnough, RecordOf, [row], |rows|) == [RecordOf(row, |rows|)] by {
      assert [row][1..] == [];
    }
  }

  /** Into a sheet with no header at all, the first saved score takes the
      header's place and is never read back. */
  lemma FirstScoreWithoutHeaderIsLost(user: GoogleUser, today: string, data: ScoreData)
    ensures GetScores(Some(user), Some([RenderRow(ScoreRow(user, today, data))])) == []
  {
  }

  // ---------------------------------------------------------------- getStatistics

  datatype Statistics = Statistics(totalRounds: nat, averageScore: int, bestScore: int, worstScore: int)

  /** `getStatistics`' arithmetic on the list of totals: all zeros for no
      rounds; otherwise the count, the mean rounded half-up, the least and
      the greatest total. */
  function Summarize(totals: seq<int>): (s: Statistics)
    ensures totals == [] ==> s == Statistics(0, 0, 0, 0)
    ensures totals != [] ==>
      && s.totalRounds == |totals|
      && s.bestScore in totals && s.worstScore in totals
      && (forall i :: 0 <= i < |totals| ==> s.bestScore <= totals[i] <= s.worstScore)
      && s.bestScore <= s.averageScore <= s.worstScore
      && 2 * |totals| * s.averageScore <= 2 * Sum(totals) + |totals| < 2 * |totals| * (s.averageScore + 1)
  {
    if totals == [] then Statistics(0, 0, 0, 0)
    else
      RoundedMeanWithinRange(totals);
      Statistics(|totals|, RoundedMean(Sum(totals), |totals|), Min(totals), Max(totals))
  }

  /** The totals of a list of records. */
  function Totals(scores: seq<ScoreRecord>): (ts: seq<int>)
    ensures |ts| == |scores|
    ensures forall i :: 0 <= i < |scores| ==> ts[i] == scores[i].totalScore
  {
    Map((rec: ScoreRecord) => rec.totalScore, scores)
  }

  /** `getStatistics`: the summary of what `getScores` returns. */
  function GetStatistics(google: Option<GoogleUser>, read: Option<seq<seq<string>>>): (s: Statistics)
    ensures GetScores(google, read) == [] ==> s == Statistics(0, 0, 0, 0)
    ensures s.totalRounds == |GetScores(google, read)|
    ensures s == Summarize(Totals(GetScores(google, read)))
  {
    Summarize(Totals(GetScores(google, read)))
  }

  /** Three rounds of 72, 80 and 68: average 220 / 3 rounded to 73, best 68,
      worst 80. */
  lemma SummarizeThreeRounds()
    ensures Summarize([72, 80, 68]) == Statistics(3, 73, 68, 80)
  {
    assert Sum([72, 80, 68]) == 220;
  }

  /** A mean exactly half-way between two integers rounds up, as
      `Math.round` does: 71 and 72 average 71.5, reported as 72. */
  lemma SummarizeRoundsHalfUp()
    ensures Summarize([71, 72]).averageScore == 72
  {
    assert Sum([71, 72]) == 143;
  }
}

=== FILE: gateway_users.dfy ===
/** The Users table as `GoogleSheetsAPI` (static/js/google-sheets-api.js)
    sees it: parsing the sheet rows into users, and the decisions of
    `registerUser` and `loginUser`. The signed-in Google account is an
    input (`None` when nobody is signed in); the sheet read is an input and
    the appended row a result. */
module GatewayUsers {
  import opened Wrappers
  import opened Text
  import opened Sequences
  import opened Cells

  /** A row of the Users sheet: username, email, password, Google id,
      Google name, creation time. Passwords are stored as given. */
  datatype SheetUser = SheetUser(
    username: string,
    email: string,
    password: string,
    googleId: string,
    googleName: string,
    createdAt: string)

  /** The signed-in Google account's basic profile. */
  datatype GoogleUser = GoogleUser(id: string, name: string, email: string)

  // ---------------------------------------------------------------- getUsers

  /** The three spellings of a header's first cell that `getUsers` recognises. */
  predicate IsHeaderRow(row: seq<string>) {
    |row| > 0 && (row[0] == "username" || row[0] == "Username" || row[0] == "사용자명")
  }

  /** One row as a user: each of the six cells trimmed. */
  function RowUser(row: seq<string>): SheetUser {
    SheetUser(Trim(CellOrEmpty(row, 0)), Trim(CellOrEmpty(row, 1)), Trim(CellOrEmpty(row, 2)),
      Trim(CellOrEmpty(row, 3)), Trim(CellOrEmpty(row, 4)), Trim(CellOrEmpty(row, 5)))
  }

  /** Every field of a row's user is already trimmed, and the username,
      email and password are no longer than their cells. */
  lemma RowUserTrimmed(row: seq<string>)
    ensures var u := RowUser(row);
      && Trim(u.username) == u.username && |u.username| <= |CellOrEmpty(row, 0)|
      && Trim(u.email) == u.email && |u.email| <= |CellOrEmpty(row, 1)|
      && Trim(u.password) == u.password && |u.password| <= |CellOrEmpty(row, 2)|
      && Trim(u.googleId) == u.googleId && Trim(u.googleName) == u.googleName
      && Trim(u.createdAt) == u.createdAt
  {
    TrimIdempotent(CellOrEmpty(row, 0));
    TrimIdempotent(CellOrEmpty(row, 1));
    TrimIdempotent(CellOrEmpty(row, 2));
    TrimIdempotent(CellOrEmpty(row, 3));
    TrimIdempotent(CellOrEmpty(row, 4));
    TrimIdempotent(CellOrEmpty(row, 5));
  }

  /** The users `getUsers` keeps: those with a username and an email. */
  predicate Usable(u: SheetUser) {
    u.username != "" && u.email != ""
  }

  /** Every row read as a user, before filtering. */
  function ParseRows(rows: seq<seq<string>>): (users: seq<SheetUser>)
    ensures |users| == |rows|
    ensures forall i :: 0 <= i < |rows| ==> users[i] == RowUser(rows[i])
  {
    Map(RowUser, rows)
  }

  /** The `filter` step: usable users, in their original order. */
  function KeepUsable(users: seq<SheetUser>): (kept: seq<SheetUser>)
    ensures |kept| <= |users|
    ensures forall k :: 0 <= k < |kept| ==> Usable(kept[k]) && kept[k] in users
    ensures forall u :: u in users && Usable(u) ==> u in kept
  {
    if users == [] then []
    else (if Usable(users[0]) then [users[0]] else []) + KeepUsable(users[1..])
  }

  /** Filtering distributes over concatenation: order is kept and each user
      is judged by itself. */
  lemma {:induction false} KeepUsableAppend(a: seq<SheetUser>, b: seq<SheetUser>)
    ensures KeepUsable(a + b) == KeepUsable(a) + KeepUsable(b)
  {
    if a == [] {
      assert a + b == b;
    } else {
      assert (a + b)[0] == a[0];
      assert (a + b)[1..] == a[1..] + b;
      KeepUsableAppend(a[1..], b);
    }
  }

  /** The data rows of a read: all rows but a leading header row. */
  function DataRows(rows: seq<seq<string>>): (data: seq<seq<string>>)
    ensures rows != [] && IsHeaderRow(rows[0]) ==> data == rows[1..]
    ensures rows == [] || !IsHeaderRow(rows[0]) ==> data == rows
  {
    if rows != [] && IsHeaderRow(rows[0]) then rows[1..] else rows
  }

  /** `getUsers`: `read` is what the Sheets call returned, `None` when it
      threw; a failed read gives no users. The first row is dropped only
      when it looks like a header; every other row with a username and an
      email becomes a user. */
  function GetUsers(read: Option<seq<seq<string>>>): (users: seq<SheetUser>)
    ensures read.None? ==> users == []
    ensures read.Some? ==> users == KeepUsable(ParseRows(DataRows(read.value)))
    ensures read.Some? ==> forall i :: 0 <= i < |DataRows(read.value)| && Usable(RowUser(DataRows(read.value)[i])) ==>
      RowUser(DataRows(read.value)[i]) in users
  {
    match read
    case None => []
    case Some(rows) =>
      var parsed := ParseRows(DataRows(rows));
      assert forall i :: 0 <= i < |DataRows(rows)| ==> RowUser(DataRows(rows)[i]) == parsed[i];
      KeepUsable(parsed)
  }

  /** Every user `getUsers` returns has a non-empty, already trimmed
      username and email. */
  lemma GetUsersTrimmed(read: Option<seq<seq<string>>>)
    ensures forall k :: 0 <= k < |GetUsers(read)| ==>
      && Usable(GetUsers(read)[k])
      && Trim(GetUsers(read)[k].username) == GetUsers(read)[k].username
      && Trim(GetUsers(read)[k].email) == GetUsers(read)[k].email
  {
    var users := GetUsers(read);
    if read.Some? {
      var data := DataRows(read.value);
      var parsed := ParseRows(data);
      forall k | 0 <= k < |users|
        ensures Trim(users[k].username) == users[k].username && Trim(users[k].email) == users[k].email
      {
        assert users[k] in parsed;
        var i :| 0 <= i < |parsed| && parsed[i] == users[k];
        TrimIdempotent(CellOrEmpty(data[i], 0));
        TrimIdempotent(CellOrEmpty(data[i], 1));
      }
    }
  }

  /** Appending a row below existing rows adds exactly the user parsed from
      it when it is usable. */
  lemma GetUsersAppend(rows: seq<seq<string>>, row: seq<string>)
    requires rows != []
    ensures GetUsers(Some(rows + [row]))
      == GetUsers(Some(rows)) + (if Usable(RowUser(row)) then [RowUser(row)] else [])
  {
    var all := rows + [row];
    var u := RowUser(row);
    assert DataRows(all) == DataRows(rows) + [row] by {
      assert all[0] == rows[0];
      if IsHeaderRow(rows[0]) {
        assert all[1..] == rows[1..] + [row];
      }
    }
    var before := ParseRows(DataRows(rows));
    assert ParseRows(DataRows(all)) == before + [u] by {
      MapAppend(RowUser, DataRows(rows), [row]);
    }
    KeepUsableAppend(before, [u]);
    assert KeepUsable([u]) == (if Usable(u) then [u] else []) by {
      assert [u][1..] == [];
    }
  }

  // ---------------------------------------------------------------- registerUser

  datatype RegisterError = RegisterNeedsGoogle | UsernameExists | EmailExists

  datatype Registration =
    | Registered(row: seq<string>)
    | RegisterFailed(error: RegisterError)

  /** Whether some user's `field` is exactly `value` (JavaScript `some`
      with `===`); `registerUser` asks it of usernames and of emails. */
  function Taken(users: seq<SheetUser>, field: SheetUser -> string, value: string): (b: bool)
    ensures b <==> exists k :: 0 <= k < |users| && field(users[k]) == value
  {
    if users == [] then false
    else field(users[0]) == value || Taken(users[1..], field, value)
  }

  /** `registerUser`: refuse without a signed-in Google account, then on an
      existing username (checked first), then on an existing email — both
      compared case-sensitively; otherwise the six-cell row to append. */
  function RegisterUser(google: Option<GoogleUser>, users: seq<SheetUser>,
                        username: string, email: string, password: string, createdAt: string): (r: Registration)
    ensures google.None? ==> r == RegisterFailed(RegisterNeedsGoogle)
    ensures r == RegisterFailed(UsernameExists) <==>
      google.Some? && exists k :: 0 <= k < |users| && users[k].username == username
    ensures r == RegisterFailed(EmailExists) <==>
      && google.Some?
      && (forall k :: 0 <= k < |users| ==> users[k].username != username)
      && (exists k :: 0 <= k < |users| && users[k].email == email)
    ensures r.Registered? ==>
      && google.Some?
      && (forall k :: 0 <= k < |users| ==> users[k].username != username && users[k].email != email)
      && r.row == [username, email, password, google.value.id, google.value.name, createdAt]
  {
    if google.None? then RegisterFailed(RegisterNeedsGoogle)
    else if Taken(users, (u: SheetUser) => u.username, username) then RegisterFailed(UsernameExists)
    else if Taken(users, (u: SheetUser) => u.email, email) then RegisterFailed(EmailExists)
    else Registered([username, email, password, google.value.id, google.value.name, createdAt])
  }

  // ---------------------------------------------------------------- loginUser

  datatype LoginError = LoginNeedsGoogle | NoUsers | UserNotFound | NoPassword | WrongPassword

  /** The user object `loginUser` returns: the username doubles as the id. */
  datatype LoginResult =
    | LoggedIn(userId: string, username: string, email: string)
    | LoginFailed(error: LoginError)

  /** `loginUser`'s search condition: a non-empty username or email equal to
      the input ignoring case. */
  function MatchesLogin(u: SheetUser, usernameOrEmail: string): (b: bool)
    ensures (u.username != "" && u.username == usernameOrEmail) || (u.email != "" && u.email == usernameOrEmail) ==> b
    ensures b ==> (u.username != "" && |u.username| == |usernameOrEmail|) || (u.email != "" && |u.email| == |usernameOrEmail|)
  {
    || (u.username != "" && ToLower(u.username) == ToLower(usernameOrEmail))
    || (u.email != "" && ToLower(u.email) == ToLower(usernameOrEmail))
  }

  /** Array `find`: the index of the first user matching the input. */
  function FindLogin(users: seq<SheetUser>, usernameOrEmail: string): (i: Option<nat>)
    ensures i.Some? ==>
      && i.value < |users| && MatchesLogin(users[i.value], usernameOrEmail)
      && forall k :: 0 <= k < i.value ==> !MatchesLogin(users[k], usernameOrEmail)
    ensures i.None? ==> forall k :: 0 <= k < |users| ==> !MatchesLogin(users[k], usernameOrEmail)
  {
    if users == [] then None
    else if MatchesLogin(users[0], usernameOrEmail) then Some(0)
    else match FindLogin(users[1..], usernameOrEmail)
      case None => None
      case Some(i) => Some(i + 1)
  }

  /** `loginUser`: find the first user whose username or email matches
      ignoring case, then require a stored password exactly equal to the
      given one. */
  function LoginUser(google: Option<GoogleUser>, users: seq<SheetUser>,
                     usernameOrEmail: string, password: string): (r: LoginResult)
    ensures google.None? ==> r == LoginFailed(LoginNeedsGoogle)
    ensures google.Some? && users == [] ==> r == LoginFailed(NoUsers)
    ensures r.LoggedIn? ==>
      && google.Some?
      && exists k :: 0 <= k < |users|
           && MatchesLogin(users[k], usernameOrEmail)
           && (forall j :: 0 <= j < k ==> !MatchesLogin(users[j], usernameOrEmail))
           && users[k].password == password != ""
           && r == LoggedIn(users[k].username, users[k].username, users[k].email)
    ensures r == LoginFailed(UserNotFound) <==>
      google.Some? && users != [] && forall k :: 0 <= k < |users| ==> !MatchesLogin(users[k], usernameOrEmail)
    ensures google.Some? && users != [] && FindLogin(users, usernameOrEmail).Some? ==>
      var found := users[FindLogin(users, usernameOrEmail).value];
      && (r == LoginFailed(NoPassword) <==> found.password == "")
      && (r == LoginFailed(WrongPassword) <==> found.password != "" && found.password != password)
      && (found.password == password != "" ==> r == LoggedIn(found.username, found.username, found.email))
  {
    if google.None? then LoginFailed(LoginNeedsGoogle)
    else if users == [] then LoginFailed(NoUsers)
    else match FindLogin(users, usernameOrEmail)
      case None => LoginFailed(UserNotFound)
      case Some(i) =>
        var found := users[i];
        if found.password == "" then LoginFailed(NoPassword)
        else if found.password != password then LoginFailed(WrongPassword)
        else LoggedIn(found.username, found.username, found.email)
  }

  /** The password check is case-sensitive while the lookup is not: a login
      that succeeds with one password fails with any other, whatever case
      the username is typed in. */
  lemma LoginPasswordExact(google: Option<GoogleUser>, users: seq<SheetUser>,
                           name: string, password: string, other: string)
    requires LoginUser(google, users, name, password).LoggedIn?
    requires other != password
    ensures LoginUser(google, users, ToLower(name), other) == LoginFailed(WrongPassword)
  {
    ToLowerIdempotent(name);
    var i := FindLogin(users, name);
    assert forall u :: MatchesLogin(u, ToLower(name)) == MatchesLogin(u, name);
    assert FindLogin(users, ToLower(name)) == i by {
      FindLoginRespectsCase(users, name, ToLower(name));
    }
  }

  /** Inputs equal ignoring case find the same user. */
  lemma {:induction false} FindLoginRespectsCase(users: seq<SheetUser>, a: string, b: string)
    requires ToLower(a) == ToLower(b)
    ensures FindLogin(users, a) == FindLogin(users, b)
  {
    if users != [] {
      FindLoginRespectsCase(users[1..], a, b);
    }
  }

  /** A user appended after users none of whom match is the one found. */
  lemma {:induction false} FindLoginAppended(users: seq<SheetUser>, u: SheetUser, usernameOrEmail: string)
    requires forall k :: 0 <= k < |users| ==> !MatchesLogin(users[k], usernameOrEmail)
    requires MatchesLogin(u, usernameOrEmail)
    ensures FindLogin(users + [u], usernameOrEmail) == Some(|users|)
  {
    if users == [] {
      assert [] + [u] == [u];
    } else {
      assert (users + [u])[1..] == users[1..] + [u];
      FindLoginAppended(users[1..], u, usernameOrEmail);
    }
  }

  /** Logging in as a user appended below users who do not match the input
      returns that user when the password is theirs. */
  lemma LoginAppended(google: GoogleUser, users: seq<SheetUser>, u: SheetUser, password: string)
    requires u.username != "" && u.password == password != ""
    requires forall k :: 0 <= k < |users| ==> !MatchesLogin(users[k], u.username)
    ensures LoginUser(Some(google), users + [u], u.username, password) == LoggedIn(u.username, u.username, u.email)
  {
    FindLoginAppended(users, u, u.username);
  }

  /** Registering and then logging in: when no existing user matches the
      new username ignoring case, logging in by that username with the
      same password returns the new user, read back from the sheet. */
  lemma RegisterThenLogin(google: GoogleUser, rows: seq<seq<string>>,
                          username: string, email: string, password: string, createdAt: string)
    requires rows != []
    requires Trim(username) == username != "" && Trim(email) == email != ""
    requires Trim(password) == password != ""
    requires forall k :: 0 <= k < |GetUsers(Some(rows))| ==> !MatchesLogin(GetUsers(Some(rows))[k], username)
    requires RegisterUser(Some(google), GetUsers(Some(rows)), username, email, password, createdAt).Registered?
    ensures
      var row := RegisterUser(Some(google), GetUsers(Some(rows)), username, email, password, createdAt).row;
      LoginUser(Some(google), GetUsers(Some(rows + [row])), username, password)
        == LoggedIn(username, username, email)
  {
    var row := [username, email, password, google.id, google.name, createdAt];
    var u := RowUser(row);
    assert u.username == username && u.email == email && u.password == password;
    GetUsersAppend(rows, row);
    LoginAppended(google, GetUsers(Some(rows)), u, password);
  }

  /** `registerUser` stores the password as typed, but `getUsers` trims
      every cell it reads back, so a password with white space at either
      end never logs in: whichever user the lookup finds holds a trimmed
      password, which differs from the typed one. */
  lemma UntrimmedPasswordNeverLogsIn(google: Option<GoogleUser>, read: Option<seq<seq<string>>>,
                                     usernameOrEmail: string, password: string)
    requires Trim(password) != password
    ensures !LoginUser(google, GetUsers(read), usernameOrEmail, password).LoggedIn?
  {
    GetUsersPasswordsTrimmed(read);
  }

  /** Every password `getUsers` returns is already trimmed. */
  lemma GetUsersPasswordsTrimmed(read: Option<seq<seq<string>>>)
    ensures forall u :: u in GetUsers(read) ==> Trim(u.password) == u.password
  {
    if read.Some? {
      var data := DataRows(read.value);
      var parsed := ParseRows(data);
      forall u | u in GetUsers(read)
        ensures Trim(u.password) == u.password
      {
        assert u in parsed;
        var i :| 0 <= i < |parsed| && parsed[i] == u;
        TrimIdempotent(CellOrEmpty(data[i], 2));
      }
    }
  }

  /** Registration is case-sensitive but login is not: with "Alice" already
      registered, "alice" can register with its own password, yet logging in
      by the username "alice" with that password finds "Alice" and fails. */
  lemma CaseOnlyDuplicateCannotLogInByUsername(google: GoogleUser)
    ensures
      var users := [SheetUser("Alice", "a@x.com", "pw1", "g1", "A", "t1")];
      var reg := RegisterUser(Some(google), users, "alice", "b@x.com", "pw2", "t2");
      && reg.Registered?
      && LoginUser(Some(google), users + [SheetUser("alice", "b@x.com", "pw2", google.id, google.name, "t2")],
                   "alice", "pw2") == LoginFailed(WrongPassword)
  {
    var users := [SheetUser("Alice", "a@x.com", "pw1", "g1", "A", "t1")];
    var both := users + [SheetUser("alice", "b@x.com", "pw2", google.id, google.name, "t2")];
    assert ToLower("Alice") == "alice" == ToLower("alice");
    assert MatchesLogin(both[0], "alice");
    assert FindLogin(both, "alice") == Some(0);
  }

  /** The same "alice" still logs in by its own email, which no earlier
      user shares. */
  lemma CaseOnlyDuplicateLogsInByEmail(google: GoogleUser)
    ensures
      var users := [SheetUser("Alice", "a@x.com", "pw1", "g1", "A", "t1"),
                    SheetUser("alice", "b@x.com", "pw2", google.id, google.name, "t2")];
      LoginUser(Some(google), users, "b@x.com", "pw2") == LoggedIn("alice", "alice", "b@x.com")
  {
    var users := [SheetUser("Alice", "a@x.com", "pw1", "g1", "A", "t1"),
                  SheetUser("alice", "b@x.com", "pw2", google.id, google.name, "t2")];
    assert ToLower("b@x.com") == "b@x.com";
    assert ToLower("Alice") == "alice" && ToLower("a@x.com") == "a@x.com";
    assert !MatchesLogin(users[0], "b@x.com");
    assert MatchesLogin(users[1], "b@x.com");
    assert FindLogin(users[1..], "b@x.com") == Some(0);
    assert FindLogin(users, "b@x.com") == Some(1);
  }
}

=== FILE: golf_rounds.dfy ===
/** The round record of `GolfScoreManager` (golf_score_manager.py): creation
    with defaults, per-hole score entry that keeps `total_score` equal to the
    sum of the hole scores, and the simple handicap. The source mutates a
    dictionary in place and returns it; here every operation returns the
    updated record. */
module GolfRounds {
  import opened Numbers

  /** The par and stroke breakdown of one hole. */
  datatype HoleDetail = HoleDetail(par: int, driver: int, woodUtil: int, iron: int, putter: int, total: int)

  const DefaultPar := 4

  /** The breakdown every hole starts with: par 4, no strokes, total 4. */
  const DefaultHole := HoleDetail(DefaultPar, 0, 0, 0, 0, 4)

  datatype Round = Round(
    playerName: string,
    courseName: string,
    date: string,
    holes: int,
    scores: seq<int>,
    detailedScores: seq<HoleDetail>,
    totalScore: int,
    parScores: seq<int>,
    handicap: int)

  /** The number of list entries `range(holes)` and `[x] * holes` produce:
      none for a negative count. */
  function HoleCount(holes: int): nat {
    if holes < 0 then 0 else holes
  }

  /** The shape every round has: one score, one breakdown and one par per
      hole. The update operations index these lists by hole number without
      a guard and rely on it. */
  ghost predicate WellFormed(r: Round) {
    && |r.scores| == HoleCount(r.holes)
    && |r.detailedScores| == HoleCount(r.holes)
    && |r.parScores| == HoleCount(r.holes)
  }

  /** The invariant the update operations maintain. */
  ghost predicate Consistent(r: Round) {
    r.totalScore == Sum(r.scores)
  }

  /** `1 <= hole <= holes`, the guard of both update operations. */
  predicate ValidHole(r: Round, hole: int) {
    1 <= hole <= r.holes
  }

  /** `create_golf_round`: the date is a parameter (the source defaults it
      to today's date). */
  function CreateRound(player: string, course: string, date: string, holes: int): (r: Round)
    ensures WellFormed(r) && Consistent(r)
    ensures r.playerName == player && r.courseName == course && r.date == date && r.holes == holes
    ensures |r.scores| == HoleCount(holes)
    ensures forall i :: 0 <= i < |r.scores| ==> r.scores[i] == 0
    ensures forall i :: 0 <= i < |r.parScores| ==> r.parScores[i] == DefaultPar
    ensures forall i :: 0 <= i < |r.detailedScores| ==>
      r.detailedScores[i].par == 4 && r.detailedScores[i].total == 4
    ensures forall i :: 0 <= i < |r.detailedScores| ==>
      r.detailedScores[i].driver == 0 && r.detailedScores[i].woodUtil == 0
      && r.detailedScores[i].iron == 0 && r.detailedScores[i].putter == 0
    ensures r.totalScore == 0 && r.handicap == 0
  {
    var n := HoleCount(holes);
    var scores := seq(n, _ => 0);
    SumConstant(scores, 0);
    Round(player, course, date, holes, scores, seq(n, _ => DefaultHole), 0, seq(n, _ => DefaultPar), 0)
  }

  /** `add_score`: records one hole's score and recomputes the total; a hole
      outside 1..holes leaves the round as it was. */
  function AddScore(r: Round, hole: int, score: int): (r': Round)
    requires WellFormed(r)
    ensures WellFormed(r') && (ValidHole(r, hole) ==> Consistent(r'))
    ensures ValidHole(r, hole) ==>
      && r' == r.(scores := r'.scores, totalScore := r'.totalScore)
      && r'.scores[hole - 1] == score
      && (forall i :: 0 <= i < |r.scores| && i != hole - 1 ==> r'.scores[i] == r.scores[i])
    ensures ValidHole(r, hole) && Consistent(r) ==>
      r'.totalScore == r.totalScore - r.scores[hole - 1] + score
    ensures !ValidHole(r, hole) ==> r' == r
  {
    if ValidHole(r, hole) then
      var scores := r.scores[hole - 1 := score];
      SumUpdate(r.scores, hole - 1, score);
      r.(scores := scores, totalScore := Sum(scores))
    else r
  }

  /** `add_detailed_score`: the hole's total is the stroke count
      driver + wood/utility + iron + putter (par is not a stroke); it becomes
      both the breakdown's total and the hole's score. `par_scores` is not
      touched. */
  function AddDetailedScore(r: Round, hole: int, par: int, driver: int, woodUtil: int, iron: int, putter: int): (r': Round)
    requires WellFormed(r)
    ensures WellFormed(r') && (ValidHole(r, hole) ==> Consistent(r'))
    ensures ValidHole(r, hole) ==>
      var strokes := driver + woodUtil + iron + putter;
      && r' == r.(scores := r'.scores, detailedScores := r'.detailedScores, totalScore := r'.totalScore)
      && r'.detailedScores[hole - 1] == HoleDetail(par, driver, woodUtil, iron, putter, strokes)
      && r'.scores[hole - 1] == strokes
      && (forall i :: 0 <= i < |r.scores| && i != hole - 1 ==>
            r'.scores[i] == r.scores[i] && r'.detailedScores[i] == r.detailedScores[i])
    ensures ValidHole(r, hole) && Consistent(r) ==>
      r'.totalScore == r.totalScore - r.scores[hole - 1] + driver + woodUtil + iron + putter
    ensures !ValidHole(r, hole) ==> r' == r
  {
    if ValidHole(r, hole) then
      var total := driver + woodUtil + iron + putter;
      var scores := r.scores[hole - 1 := total];
      SumUpdate(r.scores, hole - 1, total);
      r.(detailedScores := r.detailedScores[hole - 1 := HoleDetail(par, driver, woodUtil, iron, putter, total)],
         scores := scores,
         totalScore := Sum(scores))
    else r
  }

  /** `calculate_handicap`: strokes over the par total, never below zero.
      Returns the handicap and the round with it stored. */
  function CalculateHandicap(r: Round): (res: (int, Round))
    ensures res.0 >= 0 && res.0 >= r.totalScore - Sum(r.parScores)
    ensures res.0 == 0 || res.0 == r.totalScore - Sum(r.parScores)
    ensures res.1 == r.(handicap := res.0)
  {
    var over := r.totalScore - Sum(r.parScores);
    var h := if over > 0 then over else 0;
    (h, r.(handicap := h))
  }

  /** Scores entered for holes 1, 2, ... in order, as a caller typing a
      card does. */
  function RecordScores(r: Round, card: seq<int>): (r': Round)
    requires WellFormed(r)
    ensures WellFormed(r')
  {
    if card == [] then r
    else AddScore(RecordScores(r, card[..|card| - 1]), |card|, card[|card| - 1])
  }

  /** Entering a card of scores for the first holes puts them in place,
      keeps the others, and leaves the total equal to the score sum. */
  lemma {:induction false} RecordScoresPlacesCard(r: Round, card: seq<int>)
    requires WellFormed(r) && Consistent(r)
    requires |card| <= r.holes
    ensures RecordScores(r, card).scores == card + r.scores[|card|..]
    ensures Consistent(RecordScores(r, card))
    ensures RecordScores(r, card).parScores == r.parScores
  {
    if card != [] {
      var prefix := card[..|card| - 1];
      RecordScoresPlacesCard(r, prefix);
      var before := RecordScores(r, prefix);
      assert before.scores == prefix + r.scores[|prefix|..];
      var after := AddScore(before, |card|, card[|card| - 1]);
      assert after.scores == before.scores[|card| - 1 := card[|card| - 1]];
      assert after.scores == card + r.scores[|card|..];
    }
  }

  /** A fresh round's par total is four per hole: 72 over eighteen holes. */
  lemma FreshParTotal(player: string, course: string, date: string, holes: int)
    ensures Sum(CreateRound(player, course, date, holes).parScores) == 4 * HoleCount(holes)
  {
    var r := CreateRound(player, course, date, holes);
    SumConstant(r.parScores, 4);
  }

  /** A full card entered into a fresh round: the hole scores are the card,
      and the handicap is the card's total over four strokes a hole. */
  lemma CardHandicap(player: string, course: string, date: string, card: seq<int>)
    ensures
      var r := RecordScores(CreateRound(player, course, date, |card|), card);
      && r.scores == card
      && r.totalScore == Sum(card)
      && CalculateHandicap(r).0 == (if Sum(card) > 4 * |card| then Sum(card) - 4 * |card| else 0)
  {
    var blank := CreateRound(player, course, date, |card|);
    RecordScoresPlacesCard(blank, card);
    FreshParTotal(player, course, date, |card|);
    assert card + blank.scores[|card|..] == card;
  }

  /** The eighteen-hole card of the usage example: 78 strokes against a
      par of 72 gives a handicap of 6. */
  lemma ExampleCardHandicap(player: string, course: string, date: string)
    ensures
      var card := [4, 5, 3, 4, 6, 4, 5, 3, 4, 4, 5, 4, 3, 5, 4, 6, 4, 5];
      var r := RecordScores(CreateRound(player, course, date, 18), card);
      r.totalScore == 78 && CalculateHandicap(r).0 == 6
  {
    var front, back := [4, 5, 3, 4, 6, 4, 5, 3, 4], [4, 5, 4, 3, 5, 4, 6, 4, 5];
    assert Sum(front) == 38 && Sum(back) == 40;
    SumAppend(front, back);
    assert front + back == [4, 5, 3, 4, 6, 4, 5, 3, 4, 4, 5, 4, 3, 5, 4, 6, 4, 5];
    CardHandicap(player, course, date, front + back);
  }
}

=== FILE: numbers.dfy ===
/** Integer aggregates used by both statistics routines: sums, minima,
    maxima, and JavaScript's `Math.round` applied to a mean. */
module Numbers {

  function Sum(xs: seq<int>): int {
    if xs == [] then 0 else xs[0] + Sum(xs[1..])
  }

  /** Summing a concatenation sums the parts. */
  lemma {:induction false} SumAppend(xs: seq<int>, ys: seq<int>)
    ensures Sum(xs + ys) == Sum(xs) + Sum(ys)
  {
    if xs == [] {
      assert xs + ys == ys;
    } else {
      assert (xs + ys)[1..] == xs[1..] + ys;
      SumAppend(xs[1..], ys);
    }
  }

  /** Overwriting one entry changes the sum by the difference. */
  lemma {:induction false} SumUpdate(xs: seq<int>, i: nat, v: int)
    requires i < |xs|
    ensures Sum(xs[i := v]) == Sum(xs) - xs[i] + v
  {
    if i > 0 {
      assert xs[i := v][1..] == xs[1..][i - 1 := v];
      SumUpdate(xs[1..], i - 1, v);
    }
  }

  /** A sequence of `n` copies of `c` sums to `n * c`. */
  lemma {:induction false} SumConstant(xs: seq<int>, c: int)
    requires forall i :: 0 <= i < |xs| ==> xs[i] == c
    ensures Sum(xs) == |xs| * c
  {
    if xs != [] {
      SumConstant(xs[1..], c);
    }
  }

  /** The least element (Python's `min`, JavaScript's `Math.min(...xs)`). */
  function Min(xs: seq<int>): (m: int)
    requires |xs| > 0
    ensures m in xs
    ensures forall i :: 0 <= i < |xs| ==> m <= xs[i]
  {
    if |xs| == 1 then xs[0]
    else
      var rest := Min(xs[1..]);
      if xs[0] <= rest then xs[0] else rest
  }

  /** The greatest element (Python's `max`, JavaScript's `Math.max(...xs)`). */
  function Max(xs: seq<int>): (m: int)
    requires |xs| > 0
    ensures m in xs
    ensures forall i :: 0 <= i < |xs| ==> xs[i] <= m
  {
    if |xs| == 1 then xs[0]
    else
      var rest := Max(xs[1..]);
      if xs[0] >= rest then xs[0] else rest
  }

  /** Every element lies between the bounds, so the sum lies between
      `|xs|` times each bound. */
  lemma {:induction false} SumBetween(xs: seq<int>, lo: int, hi: int)
    requires forall i :: 0 <= i < |xs| ==> lo <= xs[i] <= hi
    ensures |xs| * lo <= Sum(xs) <= |xs| * hi
  {
    if xs != [] {
      SumBetween(xs[1..], lo, hi);
    }
  }

  /** JavaScript's `Math.round(sum / count)` for a positive count: the
      quotient rounded half-way cases upward, i.e. floor(sum/count + 1/2). */
  function RoundedMean(sum: int, count: int): (m: int)
    requires count > 0
    ensures 2 * count * m <= 2 * sum + count < 2 * count * (m + 1)
  {
    (2 * sum + count) / (2 * count)
  }

  /** Cancelling a positive factor from a strict inequality. */
  lemma MulCancel(n: int, a: int, b: int)
    requires n > 0 && n * a < n * b
    ensures a < b
  {
    assert n * (b - a) == n * b - n * a;
  }

  /** A sum between `n * lo` and `n * hi` has a rounded mean between `lo` and `hi`. */
  lemma RoundedMeanBetween(sum: int, n: int, lo: int, hi: int)
    requires n > 0
    requires n * lo <= sum <= n * hi
    ensures lo <= RoundedMean(sum, n) <= hi
  {
    var m := RoundedMean(sum, n);
    assert 2 * n * lo == 2 * (n * lo);
    MulCancel(2 * n, lo, m + 1);
    assert 2 * n * (hi + 1) == 2 * (n * hi) + 2 * n;
    MulCancel(2 * n, m, hi + 1);
  }

  /** A rounded mean stays between the least and the greatest element. */
  lemma RoundedMeanWithinRange(xs: seq<int>)
    requires |xs| > 0
    ensures Min(xs) <= RoundedMean(Sum(xs), |xs|) <= Max(xs)
  {
    SumBetween(xs, Min(xs), Max(xs));
    RoundedMeanBetween(Sum(xs), |xs|, Min(xs), Max(xs));
  }
}

=== FILE: round_sheet.dfy ===
/** How `GolfScoreManager` (golf_score_manager.py) lays rounds out in the
    sheet and reads them back: the saved row, the header row and its A1
    range, the loader, and per-player statistics. Sheet reads are inputs
    (`seq<seq<string>>`, as the Sheets API returns them) and writes are
    results. */
module RoundSheet {
  import opened Wrappers
  import opened Text
  import opened Numbers
  import opened Cells
  import opened GolfRounds
  import opened Sequences

  // ---------------------------------------------------------------- saved row

  /** The six numbers saved for one hole, in column order. */
  function HoleFields(d: HoleDetail): seq<int> {
    [d.par, d.driver, d.woodUtil, d.iron, d.putter, d.total]
  }

  /** The six cells of one hole, each a number cell. */
  function HoleCells(d: HoleDetail): (c: seq<Cell>)
    ensures |c| == 6
    ensures forall j :: 0 <= j < 6 ==> c[j] == Num(HoleFields(d)[j])
  {
    [Num(d.par), Num(d.driver), Num(d.woodUtil), Num(d.iron), Num(d.putter), Num(d.total)]
  }

  function DetailCells(ds: seq<HoleDetail>): (c: seq<Cell>)
    ensures |c| == 6 * |ds|
  {
    if ds == [] then [] else HoleCells(ds[0]) + DetailCells(ds[1..])
  }

  /** Hole `k`'s cells occupy positions 6k .. 6k+5 of the detail block. */
  lemma {:induction false} DetailCellsAt(ds: seq<HoleDetail>, k: nat, j: nat)
    requires k < |ds| && j < 6
    ensures DetailCells(ds)[6 * k + j] == HoleCells(ds[k])[j]
  {
    if k > 0 {
      DetailCellsAt(ds[1..], k - 1, j);
      assert 6 * k + j == 6 + (6 * (k - 1) + j);
    }
  }

  /** The row `save_to_sheets` appends: date, player, course, total and
      handicap, then par, driver, wood/utility, iron, putter and total for
      each hole in hole order. */
  function SaveRow(r: Round): (row: seq<Cell>)
    ensures |row| == 5 + 6 * |r.detailedScores|
    ensures row[..5] == [Str(r.date), Str(r.playerName), Str(r.courseName), Num(r.totalScore), Num(r.handicap)]
    ensures forall k, j :: 0 <= k < |r.detailedScores| && 0 <= j < 6 ==>
      row[5 + 6 * k + j] == HoleCells(r.detailedScores[k])[j]
  {
    var head := [Str(r.date), Str(r.playerName), Str(r.courseName), Num(r.totalScore), Num(r.handicap)];
    var row := head + DetailCells(r.detailedScores);
    assert forall k, j :: 0 <= k < |r.detailedScores| && 0 <= j < 6 ==>
      row[5 + 6 * k + j] == HoleCells(r.detailedScores[k])[j] by {
      forall k, j | 0 <= k < |r.detailedScores| && 0 <= j < 6
        ensures row[5 + 6 * k + j] == HoleCells(r.detailedScores[k])[j]
      {
        DetailCellsAt(r.detailedScores, k, j);
      }
    }
    row
  }

  /** A well-formed round saves to 5 + 6 * holes cells. */
  lemma SaveRowLength(r: Round)
    requires WellFormed(r)
    ensures |SaveRow(r)| == 5 + 6 * HoleCount(r.holes)
  {
  }

  // ---------------------------------------------------------------- header row

  const FixedHeaders: seq<string> := ["날짜", "플레이어", "코스", "총 스코어", "핸디캡"]
  const FieldSuffixes: seq<string> := ["Par", "Driver", "Wood/Util", "Iron", "Putter", "Total"]

  /** The header naming field `j` of the hole at 0-based index `k`, e.g.
      "홀3_Iron" for k = 2, j = 3. */
  function HoleHeader(k: nat, j: nat): string
    requires j < 6
  {
    "홀" + ShowNat(k + 1) + "_" + FieldSuffixes[j]
  }

  function HoleHeaders(n: nat): (h: seq<string>)
    ensures |h| == 6 * n
    ensures forall k, j :: 0 <= k < n && 0 <= j < 6 ==> h[6 * k + j] == HoleHeader(k, j)
  {
    if n == 0 then []
    else
      var h := HoleHeaders(n - 1) + seq(6, j requires 0 <= j < 6 => HoleHeader(n - 1, j));
      assert forall k, j :: 0 <= k < n && 0 <= j < 6 ==> h[6 * k + j] == HoleHeader(k, j) by {
        forall k, j | 0 <= k < n && 0 <= j < 6
          ensures h[6 * k + j] == HoleHeader(k, j)
        {
          if k == n - 1 {
            assert 6 * k + j == 6 * (n - 1) + j;
          } else {
            assert 6 * k + j < 6 * (n - 1) by {
              assert 6 * (n - 1) - 6 * k == 6 * (n - 1 - k);
            }
          }
        }
      }
      h
  }

  /** The header row `_ensure_headers` writes: the five round columns and
      six columns for each of eighteen holes, 113 in all, each hole column
      named after the field `SaveRow` puts beneath it. */
  function Header(): (h: seq<string>)
    ensures |h| == 113
    ensures h[..5] == FixedHeaders
    ensures forall k, j :: 0 <= k < 18 && 0 <= j < 6 ==> h[5 + 6 * k + j] == HoleHeader(k, j)
  {
    FixedHeaders + HoleHeaders(18)
  }

  // ---------------------------------------------------------------- column letters

  predicate IsColLetters(s: string) {
    forall i :: 0 <= i < |s| ==> 'A' <= s[i] <= 'Z'
  }

  /** The column number a spreadsheet column name stands for: bijective
      base 26 with digits A = 1 .. Z = 26. */
  function ColValue(s: string): nat
    requires IsColLetters(s)
  {
    if s == [] then 0 else ColValue(s[..|s| - 1]) * 26 + (s[|s| - 1] as int - 'A' as int + 1)
  }

  /** Python's `while num > 0` treats a non-positive count as zero. */
  function Clamp(x: int): nat {
    if x > 0 then x else 0
  }

  /** The column name of column number `n`, built from the last letter back. */
  function ColLetters(n: nat): (s: string)
    ensures IsColLetters(s)
    ensures |s| > 0 <==> n > 0
    decreases n
  {
    if n == 0 then "" else ColLetters((n - 1) / 26) + [('A' as int + (n - 1) % 26) as char]
  }

  /** The name `ColLetters` gives column `n` stands for column `n`. */
  lemma {:induction false} ColValueOfLetters(n: nat)
    ensures ColValue(ColLetters(n)) == n
    decreases n
  {
    if n > 0 {
      var prefix := ColLetters((n - 1) / 26);
      ColValueOfLetters((n - 1) / 26);
      var s := ColLetters(n);
      assert s[..|s| - 1] == prefix;
    }
  }

  /** Distinct column names name distinct columns: every name is the
      `ColLetters` of its value. */
  lemma {:induction false} ColLettersOfValue(s: string)
    requires IsColLetters(s)
    ensures ColLetters(ColValue(s)) == s
  {
    if s != [] {
      var prefix := s[..|s| - 1];
      var d := s[|s| - 1] as int - 'A' as int;
      ColLettersOfValue(prefix);
      var v := ColValue(s);
      assert v - 1 == ColValue(prefix) * 26 + d;
      assert (v - 1) / 26 == ColValue(prefix) && (v - 1) % 26 == d;
      assert prefix + [s[|s| - 1]] == s;
    }
  }

  /** One step of the conversion: the last letter is the remainder of
      n - 1 by 26, the rest names (n - 1) / 26. */
  lemma ColLettersStep(n: nat)
    requires n > 0
    ensures ColLetters(n) == ColLetters((n - 1) / 26) + [('A' as int + (n - 1) % 26) as char]
  {
  }

  /** `num_to_col_letters` as the loop the source writes: take one off,
      emit the letter of the remainder mod 26, divide by 26, until nothing
      is left. A non-positive number gives the empty name. */
  method NumToColLetters(num: int) returns (result: string)
    ensures IsColLetters(result)
    ensures ColValue(result) == Clamp(num)
    ensures result == ColLetters(Clamp(num))
  {
    var n := num;
    result := "";
    while n > 0
      invariant ColLetters(Clamp(num)) == ColLetters(Clamp(n)) + result
      decreases n
    {
      ColLettersStep(n);
      var letter := ('A' as int + (n - 1) % 26) as char;
      ghost var suffix := result;
      n := n - 1;
      result := [letter] + result;
      n := n / 26;
      ghost var prefix := ColLetters(n);
      assert Clamp(n) == n;
      assert prefix + [letter] + suffix == prefix + result;
    }
    assert Clamp(n) == 0 && ColLetters(0) == "";
    assert ColLetters(Clamp(num)) == "" + result == result;
    ColValueOfLetters(Clamp(num));
  }

  /** The sample values: 1 is "A", 26 is "Z", 27 is "AA", and the
      113-column header ends at column "DI". */
  lemma ColLettersSamples()
    ensures ColLetters(1) == "A" && ColLetters(26) == "Z" && ColLetters(27) == "AA"
    ensures ColLetters(113) == "DI"
  {
    assert ColLetters(1) == ColLetters(0) + "A";
    assert ColLetters(26) == ColLetters(0) + "Z";
    assert ColLetters(27) == ColLetters(1) + "A";
    assert ColLetters(4) == ColLetters(0) + "D";
    assert ColLetters(113) == ColLetters(4) + "I";
  }

  /** The header write `_ensure_headers` issues. */
  datatype HeaderWrite = HeaderWrite(range: string, headers: seq<string>)

  /** `_ensure_headers`, given what reading A1:Z1 returned: the header row
      is written only when the sheet or its first row is empty, to the
      range that ends at the header's last column. */
  function EnsureHeaders(firstRow: seq<seq<string>>): (w: Option<HeaderWrite>)
    ensures w.Some? <==> firstRow == [] || firstRow[0] == []
    ensures w.Some? ==> w.value.headers == Header() && w.value.range == "A1:DI1"
  {
    if firstRow == [] || firstRow[0] == [] then
      ColLettersSamples();
      Some(HeaderWrite("A1:" + ColLetters(|Header()|) + "1", Header()))
    else None
  }

  // ---------------------------------------------------------------- loader

  datatype LoadedRound = LoadedRound(
    date: string,
    playerName: string,
    courseName: string,
    totalScore: nat,
    handicap: nat,
    scores: seq<nat>)

  /** The number of cells `row[5:23]` yields. */
  function ScoreCellCount(rowLength: nat): nat {
    if rowLength <= 5 then 0 else if rowLength >= 23 then 18 else rowLength - 5
  }

  /** One data row of at least five cells, decoded as `load_from_sheets`
      does: text columns verbatim, number columns through the isdigit
      default, scores from cells 5 to 22. */
  function DecodeRow(row: seq<string>): (r: LoadedRound)
    requires |row| >= 5
    ensures r.date == row[0] && r.playerName == row[1] && r.courseName == row[2]
    ensures r.totalScore == DigitCellValue(row[3]) && r.handicap == DigitCellValue(row[4])
    ensures |r.scores| == ScoreCellCount(|row|) <= 18
    ensures forall i :: 0 <= i < |r.scores| ==> r.scores[i] == DigitCellValue(row[5 + i])
  {
    var n := ScoreCellCount(|row|);
    LoadedRound(row[0], row[1], row[2], DigitCellValue(row[3]), DigitCellValue(row[4]),
      seq(n, i requires 0 <= i < n => DigitCellValue(row[5 + i])))
  }

  /** What one data row contributes: its round when it has five cells,
      nothing otherwise. */
  function DecodeKept(row: seq<string>): (r: seq<LoadedRound>)
    ensures |r| <= 1
  {
    if |row| >= 5 then [DecodeRow(row)] else []
  }

  /** The data rows decoded in order; rows under five cells are skipped. */
  function LoadRows(rows: seq<seq<string>>): (rounds: seq<LoadedRound>)
    ensures |rounds| <= |rows|
  {
    FlattenShort(Map(DecodeKept, rows));
    Flatten(Map(DecodeKept, rows))
  }

  /** `load_from_sheets`, given what reading the sheet returned: the first
      row is a header and is never decoded. */
  function LoadFromSheets(values: seq<seq<string>>): (rounds: seq<LoadedRound>)
    ensures values == [] ==> rounds == []
    ensures |rounds| <= if values == [] then 0 else |values| - 1
  {
    if values == [] then [] else LoadRows(values[1..])
  }

  /** Decoding distributes over concatenation: the loader keeps row order
      and decides each row by itself. */
  lemma LoadRowsAppend(a: seq<seq<string>>, b: seq<seq<string>>)
    ensures LoadRows(a + b) == LoadRows(a) + LoadRows(b)
  {
    MapAppend(DecodeKept, a, b);
    FlattenAppend(Map(DecodeKept, a), Map(DecodeKept, b));
  }

  /** Appending a row under the header appends its round when it has five
      cells, and nothing otherwise. */
  lemma LoadAppendedRow(values: seq<seq<string>>, row: seq<string>)
    requires |values| >= 1
    ensures LoadFromSheets(values + [row])
      == LoadFromSheets(values) + (if |row| >= 5 then [DecodeRow(row)] else [])
  {
    assert (values + [row])[1..] == values[1..] + [row];
    LoadRowsAppend(values[1..], [row]);
    assert Map(DecodeKept, [row]) == [DecodeKept(row)];
    assert Flatten([DecodeKept(row)]) == DecodeKept(row) + Flatten([]);
  }

  /** The non-negative part of `v`: what a number cell reads back as
      through the isdigit default. */
  function NonNegative(v: int): nat {
    if v >= 0 then v else 0
  }

  /** Decoding the rendered save row of a round with at least three holes:
      the text columns come back, totals and handicaps when non-negative,
      and the eighteen "scores" are the detail cells of holes 1 to 3. */
  lemma DecodeSavedRow(r: Round)
    requires |r.detailedScores| >= 3
    ensures
      var back := DecodeRow(RenderRow(SaveRow(r)));
      && back.date == r.date && back.playerName == r.playerName && back.courseName == r.courseName
      && back.totalScore == NonNegative(r.totalScore)
      && back.handicap == NonNegative(r.handicap)
      && |back.scores| == 18
      && forall k, j :: 0 <= k < 3 && 0 <= j < 6 ==>
           back.scores[6 * k + j] == NonNegative(HoleFields(r.detailedScores[k])[j])
  {
    var cells := SaveRow(r);
    var row := RenderRow(cells);
    var back := DecodeRow(row);
    assert cells[3] == Num(r.totalScore) && cells[4] == Num(r.handicap);
    DigitCellOfShowInt(r.totalScore);
    DigitCellOfShowInt(r.handicap);
    forall k, j | 0 <= k < 3 && 0 <= j < 6
      ensures back.scores[6 * k + j] == NonNegative(HoleFields(r.detailedScores[k])[j])
    {
      var v := HoleFields(r.detailedScores[k])[j];
      assert cells[5 + 6 * k + j] == HoleCells(r.detailedScores[k])[j] == Num(v);
      assert row[5 + 6 * k + j] == ShowInt(v);
      DigitCellOfShowInt(v);
    }
  }

  /** What the loader makes of a row `save_to_sheets` wrote under the
      existing rows: exactly one more round, the decoded save row. */
  lemma SavedRowReadBack(values: seq<seq<string>>, r: Round)
    requires |values| >= 1
    ensures
      var loaded := LoadFromSheets(values + [RenderRow(SaveRow(r))]);
      loaded == LoadFromSheets(values) + [DecodeRow(RenderRow(SaveRow(r)))]
  {
    LoadAppendedRow(values, RenderRow(SaveRow(r)));
  }

  /** A new eighteen-hole round has hole scores of 0, yet the loader reads
      its first "score" as 4, the par of hole 1: the saved hole scores do
      not survive a save and load. */
  lemma LoadDoesNotRecoverHoleScores(values: seq<seq<string>>, player: string, course: string, date: string)
    requires |values| >= 1
    ensures
      var r := CreateRound(player, course, date, 18);
      var loaded := LoadFromSheets(values + [RenderRow(SaveRow(r))]);
      && |loaded| >= 1 && |loaded[|loaded| - 1].scores| == 18
      && r.scores[0] == 0 && loaded[|loaded| - 1].scores[..6] == [4, 0, 0, 0, 0, 4]
  {
    var r := CreateRound(player, course, date, 18);
    SavedRowReadBack(values, r);
    DecodeSavedRow(r);
    assert HoleFields(r.detailedScores[0]) == [4, 0, 0, 0, 0, 4];
  }

  // ---------------------------------------------------------------- statistics

  /** The rounds whose player name equals `player` exactly, in order. */
  function PlayerRounds(rounds: seq<LoadedRound>, player: string): (mine: seq<LoadedRound>)
    ensures |mine| <= |rounds|
    ensures forall x :: x in mine <==> x in rounds && x.playerName == player
  {
    if rounds == [] then []
    else (if rounds[0].playerName == player then [rounds[0]] else []) + PlayerRounds(rounds[1..], player)
  }

  /** Filtering by player keeps order and multiplicity: a round appended
      to the sheet is appended to the player's rounds exactly when it is
      theirs. */
  lemma {:induction false} PlayerRoundsAppend(rounds: seq<LoadedRound>, x: LoadedRound, player: string)
    ensures PlayerRounds(rounds + [x], player)
      == PlayerRounds(rounds, player) + (if x.playerName == player then [x] else [])
  {
    if rounds == [] {
      assert rounds + [x] == [x];
      assert [x][1..] == [];
    } else {
      assert (rounds + [x])[0] == rounds[0];
      assert (rounds + [x])[1..] == rounds[1..] + [x];
      PlayerRoundsAppend(rounds[1..], x, player);
    }
  }

  function Totals(rounds: seq<LoadedRound>): (t: seq<int>)
    ensures |t| == |rounds|
    ensures forall i :: 0 <= i < |rounds| ==> t[i] == rounds[i].totalScore
  {
    seq(|rounds|, i requires 0 <= i < |rounds| => rounds[i].totalScore as int)
  }

  /** `get_player_statistics`: a message when the player has no round;
      otherwise the count, the score sum (the source divides it into an
      average), the best and worst totals and the totals of the last five
      rounds (whose mean the source reports). */
  datatype PlayerStats =
    | NoRounds(message: string)
    | Stats(playerName: string, totalRounds: nat, scoreSum: int, bestScore: int, worstScore: int, recentScores: seq<int>)

  /** The player's totals are exactly the totals of the rounds played
      under that name. */
  lemma PlayerTotals(rounds: seq<LoadedRound>, player: string)
    ensures forall i :: 0 <= i < |rounds| && rounds[i].playerName == player ==>
      rounds[i].totalScore in Totals(PlayerRounds(rounds, player))
    ensures forall v :: v in Totals(PlayerRounds(rounds, player)) ==>
      exists i :: 0 <= i < |rounds| && rounds[i].playerName == player && rounds[i].totalScore == v
  {
    var mine := PlayerRounds(rounds, player);
    var totals := Totals(mine);
    forall i | 0 <= i < |rounds| && rounds[i].playerName == player
      ensures rounds[i].totalScore in totals
    {
      assert rounds[i] in rounds;
      var k :| 0 <= k < |mine| && mine[k] == rounds[i];
      assert totals[k] == rounds[i].totalScore;
    }
    forall v | v in totals
      ensures exists i :: 0 <= i < |rounds| && rounds[i].playerName == player && rounds[i].totalScore == v
    {
      var k :| 0 <= k < |totals| && totals[k] == v;
      assert mine[k] in mine;
      var i :| 0 <= i < |rounds| && rounds[i] == mine[k];
    }
  }

  /** A player without rounds is one no round names. */
  lemma NoPlayerRounds(rounds: seq<LoadedRound>, player: string)
    ensures PlayerRounds(rounds, player) == [] <==>
      forall i :: 0 <= i < |rounds| ==> rounds[i].playerName != player
  {
    if PlayerRounds(rounds, player) == [] {
      forall i | 0 <= i < |rounds|
        ensures rounds[i].playerName != player
      {
        assert rounds[i] in rounds;
      }
    } else {
      var x := PlayerRounds(rounds, player)[0];
      assert x in rounds;
    }
  }

  function StatisticsOf(rounds: seq<LoadedRound>, player: string): (s: PlayerStats)
    ensures s.NoRounds? <==> forall i :: 0 <= i < |rounds| ==> rounds[i].playerName != player
    ensures s.NoRounds? ==> s.message == player + "의 라운드 기록이 없습니다."
    ensures s.Stats? ==>
      var mine := PlayerRounds(rounds, player);
      && s.playerName == player
      && s.totalRounds == |mine| > 0
      && s.scoreSum == Sum(Totals(mine))
      && s.bestScore <= s.worstScore
      && (exists i :: 0 <= i < |rounds| && rounds[i].playerName == player && rounds[i].totalScore == s.bestScore)
      && (exists i :: 0 <= i < |rounds| && rounds[i].playerName == player && rounds[i].totalScore == s.worstScore)
      && (forall i :: 0 <= i < |rounds| && rounds[i].playerName == player ==>
            s.bestScore <= rounds[i].totalScore <= s.worstScore)
      && |s.recentScores| == (if |mine| < 5 then |mine| else 5)
      && s.recentScores == Totals(mine)[|mine| - |s.recentScores|..]
  {
    var mine := PlayerRounds(rounds, player);
    NoPlayerRounds(rounds, player);
    if mine == [] then
      NoRounds(player + "의 라운드 기록이 없습니다.")
    else
      var totals := Totals(mine);
      PlayerTotals(rounds, player);
      var recent := if |mine| < 5 then |mine| else 5;
      Stats(player, |mine|, Sum(totals), Min(totals), Max(totals), totals[|mine| - recent..])
  }

  /** `get_player_statistics` over what reading the sheet returned. */
  function PlayerStatistics(values: seq<seq<string>>, player: string): (s: PlayerStats)
    ensures values == [] ==> s.NoRounds?
    ensures s.Stats? ==> s.totalRounds <= |values| - 1 && 0 <= s.bestScore <= s.worstScore
    ensures s == StatisticsOf(LoadFromSheets(values), player)
  {
    var rounds := LoadFromSheets(values);
    var s := StatisticsOf(rounds, player);
    if s.Stats? then
      var mine := PlayerRounds(rounds, player);
      assert mine[0] in rounds;
      s
    else s
  }
}

=== FILE: sequences.dfy ===
/** Generic sequence helpers shared by the table readers. */
module Sequences {

  /** Applying `f` to every element, in order (JavaScript's `map`). */
  function Map<A, B>(f: A -> B, xs: seq<A>): (ys: seq<B>)
    ensures |ys| == |xs|
    ensures forall i :: 0 <= i < |xs| ==> ys[i] == f(xs[i])
  {
    if xs == [] then [] else [f(xs[0])] + Map(f, xs[1..])
  }

  /** Mapping distributes over concatenation. */
  lemma {:induction false} MapAppend<A, B>(f: A -> B, xs: seq<A>, ys: seq<A>)
    ensures Map(f, xs + ys) == Map(f, xs) + Map(f, ys)
  {
    if xs == [] {
      assert xs + ys == ys;
    } else {
      assert (xs + ys)[1..] == xs[1..] + ys;
      MapAppend(f, xs[1..], ys);
    }
  }

  /** JavaScript's `forEach((x, index) => { if (keep(x)) out.push(f(x, ...)) })`
      with positions counted from `position`: every element uses up a
      position, kept or not. */
  function CollectIndexed<A, B>(keep: A -> bool, f: (A, nat) -> B, xs: seq<A>, position: nat): (ys: seq<B>)
    ensures |ys| <= |xs|
  {
    if xs == [] then []
    else (if keep(xs[0]) then [f(xs[0], position)] else []) + CollectIndexed(keep, f, xs[1..], position + 1)
  }

  /** Every kept element is collected, with its own position. */
  lemma {:induction false} CollectIndexedKeeps<A, B>(keep: A -> bool, f: (A, nat) -> B, xs: seq<A>, position: nat)
    ensures forall i :: 0 <= i < |xs| && keep(xs[i]) ==> f(xs[i], position + i) in CollectIndexed(keep, f, xs, position)
  {
    if xs != [] {
      CollectIndexedKeeps(keep, f, xs[1..], position + 1);
      assert forall i :: 1 <= i < |xs| ==> xs[i] == xs[1..][i - 1];
    }
  }

  /** Everything collected comes from a kept element, at its own position. */
  lemma {:induction false} CollectIndexedOnlyKept<A, B>(keep: A -> bool, f: (A, nat) -> B, xs: seq<A>, position: nat)
    ensures forall y :: y in CollectIndexed(keep, f, xs, position) ==>
      exists i :: 0 <= i < |xs| && keep(xs[i]) && y == f(xs[i], position + i)
  {
    if xs != [] {
      CollectIndexedOnlyKept(keep, f, xs[1..], position + 1);
      var rest := CollectIndexed(keep, f, xs[1..], position + 1);
      forall y | y in CollectIndexed(keep, f, xs, position)
        ensures exists i :: 0 <= i < |xs| && keep(xs[i]) && y == f(xs[i], position + i)
      {
        if y !in rest {
          assert keep(xs[0]) && y == f(xs[0], position + 0);
        } else {
          var j :| 0 <= j < |xs[1..]| && keep(xs[1..][j]) && y == f(xs[1..][j], position + 1 + j);
          assert xs[1..][j] == xs[j + 1];
        }
      }
    }
  }

  /** Nothing is collected when nothing is kept. */
  lemma {:induction false} CollectIndexedNone<A, B>(keep: A -> bool, f: (A, nat) -> B, xs: seq<A>, position: nat)
    requires forall i :: 0 <= i < |xs| ==> !keep(xs[i])
    ensures CollectIndexed(keep, f, xs, position) == []
  {
    if xs != [] {
      assert !keep(xs[0]);
      CollectIndexedNone(keep, f, xs[1..], position + 1);
    }
  }

  /** Collecting distributes over concatenation, positions continuing
      across the boundary. */
  lemma {:induction false} CollectIndexedAppend<A, B>(keep: A -> bool, f: (A, nat) -> B, xs: seq<A>, ys: seq<A>, position: nat)
    ensures CollectIndexed(keep, f, xs + ys, position)
      == CollectIndexed(keep, f, xs, position) + CollectIndexed(keep, f, ys, position + |xs|)
  {
    if xs == [] {
      assert xs + ys == ys;
    } else {
      assert (xs + ys)[0] == xs[0];
      assert (xs + ys)[1..] == xs[1..] + ys;
      CollectIndexedAppend(keep, f, xs[1..], ys, position + 1);
    }
  }

  /** The concatenation of a sequence of sequences, in order. */
  function Flatten<T>(xss: seq<seq<T>>): seq<T> {
    if xss == [] then [] else xss[0] + Flatten(xss[1..])
  }

  /** Flattening distributes over concatenation. */
  lemma {:induction false} FlattenAppend<T>(xss: seq<seq<T>>, yss: seq<seq<T>>)
    ensures Flatten(xss + yss) == Flatten(xss) + Flatten(yss)
  {
    if xss == [] {
      assert xss + yss == yss;
    } else {
      assert (xss + yss)[1..] == xss[1..] + yss;
      FlattenAppend(xss[1..], yss);
    }
  }

  /** Flattening pieces of at most one element each gives at most one
      element per piece. */
  lemma {:induction false} FlattenShort<T>(xss: seq<seq<T>>)
    requires forall i :: 0 <= i < |xss| ==> |xss[i]| <= 1
    ensures |Flatten(xss)| <= |xss|
  {
    if xss != [] {
      FlattenShort(xss[1..]);
    }
  }
}

=== FILE: text.dfy ===
/** String primitives the three data-access classes lean on: Python's
    `str.isdigit`/`int`, `str.split` and `bytes.hex`, and JavaScript's
    `String.prototype.includes`, `trim`, `toLowerCase` and `parseInt`.
    Character classes are ASCII: Unicode digits, Unicode white space and
    Unicode case folding are not part of this model. */
module Text {
  import opened Wrappers

  // ---------------------------------------------------------------- digits

  predicate IsDigit(c: char) {
    '0' <= c <= '9'
  }

  predicate AllDigits(s: string) {
    forall i :: 0 <= i < |s| ==> IsDigit(s[i])
  }

  /** Python's `s.isdigit()`: true of a non-empty run of digits only. */
  predicate IsDigits(s: string) {
    |s| > 0 && AllDigits(s)
  }

  /** The value of a run of decimal digits, most significant first. */
  function DigitsValue(s: string): nat
    requires AllDigits(s)
  {
    if s == [] then 0 else DigitsValue(s[..|s| - 1]) * 10 + (s[|s| - 1] as int - '0' as int)
  }

  function DigitChar(d: nat): (c: char)
    requires d < 10
    ensures IsDigit(c) && c as int - '0' as int == d
  {
    ('0' as int + d) as char
  }

  /** Decimal rendering of a natural number, as Python's `str` and
      JavaScript's `String` print it: no sign, no leading zeros. */
  function ShowNat(n: nat): (s: string)
    ensures IsDigits(s)
    ensures DigitsValue(s) == n
    ensures s[0] == '0' ==> n == 0
    decreases n
  {
    if n < 10 then [DigitChar(n)] else ShowNat(n / 10) + [DigitChar(n % 10)]
  }

  /** Decimal rendering of an integer: a leading '-' for negatives. */
  function ShowInt(n: int): (s: string)
    ensures |s| > 0
    ensures n >= 0 <==> IsDigits(s)
    ensures n < 0 ==> s[0] == '-' && IsDigits(s[1..]) && DigitsValue(s[1..]) == -n
  {
    if n < 0 then
      var digits := ShowNat(-n);
      assert ("-" + digits)[1..] == digits;
      assert !IsDigit(("-" + digits)[0]);
      "-" + digits
    else ShowNat(n)
  }

  /** Python's `int(s) if s.isdigit() else 0`, the loaders' cell default. */
  function DigitCellValue(s: string): (n: nat)
    ensures IsDigits(s) ==> n == DigitsValue(s)
    ensures !IsDigits(s) ==> n == 0
  {
    if IsDigits(s) then DigitsValue(s) else 0
  }

  /** Writing an integer to a cell and reading it back through Python's
      isdigit/int default: non-negative values survive, negative ones read as 0. */
  lemma DigitCellOfShowInt(n: int)
    ensures DigitCellValue(ShowInt(n)) == if n >= 0 then n else 0
  {
    if n < 0 {
      assert ShowInt(n)[0] == '-';
      assert !IsDigit('-');
    }
  }

  // ---------------------------------------------------------------- substrings

  predicate IsPrefix(p: string, s: string) {
    |p| <= |s| && s[..|p|] == p
  }

  /** JavaScript's `s.includes(sub)`, by scanning start positions. */
  function Contains(s: string, sub: string): (b: bool)
    ensures b ==> |sub| <= |s|
    decreases |s|
  {
    IsPrefix(sub, s) || (|s| > 0 && Contains(s[1..], sub))
  }

  /** `sub` occurs in `s` starting at position `i`. */
  predicate OccursAt(s: string, sub: string, i: int) {
    0 <= i <= |s| - |sub| && s[i..i + |sub|] == sub
  }

  /** `Contains` holds exactly when `sub` occurs at some position of `s`. */
  lemma {:induction false} ContainsIffOccurs(s: string, sub: string)
    ensures Contains(s, sub) <==> exists i :: OccursAt(s, sub, i)
    decreases |s|
  {
    if IsPrefix(sub, s) {
      assert OccursAt(s, sub, 0);
    } else if |s| == 0 {
      assert |sub| > 0 by {
        assert IsPrefix(sub, s) || |sub| > |s|;
      }
    } else {
      ContainsIffOccurs(s[1..], sub);
      if Contains(s[1..], sub) {
        var i :| OccursAt(s[1..], sub, i);
        assert s[i + 1..i + 1 + |sub|] == s[1..][i..i + |sub|];
        assert OccursAt(s, sub, i + 1);
      } else {
        forall i | 0 <= i <= |s| - |sub|
          ensures !OccursAt(s, sub, i)
        {
          if i == 0 {
            assert s[..|sub|] == s[i..i + |sub|];
          } else {
            assert s[i..i + |sub|] == s[1..][i - 1..i - 1 + |sub|];
            assert !OccursAt(s[1..], sub, i - 1);
          }
        }
      }
    }
  }

  // ---------------------------------------------------------------- white space

  /** The ASCII part of JavaScript's white-space class. */
  predicate IsSpace(c: char) {
    c == ' ' || c == '\t' || c == '\n' || c == '\r' || c == '\U{000B}' || c == '\U{000C}'
  }

  /** Where `s[i..]` stops starting with white space. */
  function StartIndex(s: string, i: nat): (j: nat)
    requires i <= |s|
    ensures i <= j <= |s|
    decreases |s| - i
  {
    if i < |s| && IsSpace(s[i]) then StartIndex(s, i + 1) else i
  }

  /** `StartIndex` stops at the first non-space character from `i` on. */
  lemma {:induction false} StartIndexSpec(s: string, i: nat)
    requires i <= |s|
    ensures var j := StartIndex(s, i);
      && (j < |s| ==> !IsSpace(s[j]))
      && forall k :: i <= k < j ==> IsSpace(s[k])
    decreases |s| - i
  {
    if i < |s| && IsSpace(s[i]) {
      StartIndexSpec(s, i + 1);
    }
  }

  /** `s` with its leading white space removed. */
  function TrimStart(s: string): (r: string)
    ensures |r| <= |s|
  {
    s[StartIndex(s, 0)..]
  }

  /** `TrimStart` cuts exactly the leading run of white space: what remains
      is a suffix of the input that does not start with white space, and
      everything cut was white space. */
  lemma TrimStartSpec(s: string)
    ensures var r := TrimStart(s);
      && r == s[|s| - |r|..]
      && (|r| > 0 ==> !IsSpace(r[0]))
      && forall k :: 0 <= k < |s| - |r| ==> IsSpace(s[k])
  {
    StartIndexSpec(s, 0);
  }

  /** Where `s[lo..n]` stops ending with white space, never below `lo`. */
  function EndIndex(s: string, lo: nat, n: nat): (e: nat)
    requires lo <= n <= |s|
    ensures lo <= e <= n
  {
    if n > lo && IsSpace(s[n - 1]) then EndIndex(s, lo, n - 1) else n
  }

  /** `EndIndex` stops after the last non-space character before `n`. */
  lemma {:induction false} EndIndexSpec(s: string, lo: nat, n: nat)
    requires lo <= n <= |s|
    ensures var e := EndIndex(s, lo, n);
      && (e > lo ==> !IsSpace(s[e - 1]))
      && forall k :: e <= k < n ==> IsSpace(s[k])
  {
    if n > lo && IsSpace(s[n - 1]) {
      EndIndexSpec(s, lo, n - 1);
    }
  }

  /** JavaScript's `s.trim()`: the slice between the leading and the
      trailing run of white space. */
  function Trim(s: string): (r: string)
    ensures |r| <= |s|
  {
    var i := StartIndex(s, 0);
    s[i..EndIndex(s, i, |s|)]
  }

  /** `Trim` cuts exactly the white space at both ends: the result is the
      inner slice of the input after the leading white space, it neither
      starts nor ends with white space, and all that was cut is white space. */
  lemma TrimSpec(s: string)
    ensures var i := |s| - |TrimStart(s)|;
      && i + |Trim(s)| <= |s| && Trim(s) == s[i..i + |Trim(s)|]
      && (forall k :: 0 <= k < i ==> IsSpace(s[k]))
      && (forall k :: i + |Trim(s)| <= k < |s| ==> IsSpace(s[k]))
    ensures |Trim(s)| > 0 ==> !IsSpace(Trim(s)[0]) && !IsSpace(Trim(s)[|Trim(s)| - 1])
  {
    var i := StartIndex(s, 0);
    StartIndexSpec(s, 0);
    EndIndexSpec(s, i, |s|);
  }

  /** A string that does not start with white space is its own `TrimStart`. */
  lemma TrimStartNoop(s: string)
    requires |s| > 0 ==> !IsSpace(s[0])
    ensures TrimStart(s) == s
  {
  }

  /** Trimming twice is trimming once. */
  lemma TrimIdempotent(s: string)
    ensures Trim(Trim(s)) == Trim(s)
  {
    var t := Trim(s);
    TrimSpec(s);
    if |t| > 0 {
      assert StartIndex(t, 0) == 0;
      assert EndIndex(t, 0, |t|) == |t|;
    }
  }

  // ---------------------------------------------------------------- case

  function LowerChar(c: char): char {
    if 'A' <= c <= 'Z' then (c as int + 32) as char else c
  }

  /** JavaScript's `s.toLowerCase()` on ASCII letters. */
  function ToLower(s: string): (r: string)
    ensures |r| == |s|
    ensures forall i :: 0 <= i < |s| ==> r[i] == LowerChar(s[i])
  {
    seq(|s|, i requires 0 <= i < |s| => LowerChar(s[i]))
  }

  /** Two strings that are equal ignoring ASCII case. */
  predicate EqualsIgnoringCase(a: string, b: string) {
    ToLower(a) == ToLower(b)
  }

  /** Lower-casing leaves no upper-case ASCII letter, so it is idempotent. */
  lemma ToLowerIdempotent(s: string)
    ensures ToLower(ToLower(s)) == ToLower(s)
    ensures forall i :: 0 <= i < |s| ==> !('A' <= ToLower(s)[i] <= 'Z')
  {
  }

  // ---------------------------------------------------------------- parseInt

  /** The longest prefix of `s` made of digits. */
  function DigitPrefix(s: string): (d: string)
    ensures IsPrefix(d, s) && AllDigits(d)
    ensures |d| < |s| ==> !IsDigit(s[|d|])
  {
    if |s| > 0 && IsDigit(s[0]) then [s[0]] + DigitPrefix(s[1..]) else []
  }

  /** JavaScript's `parseInt(s)` in base 10: leading white space, an optional
      sign, then the longest run of digits; `None` stands for `NaN`. */
  function ParseInt(s: string): (r: Option<int>)
    ensures r.None? <==> DigitPrefix(SignFree(TrimStart(s))) == []
  {
    var t := TrimStart(s);
    var digits := DigitPrefix(SignFree(t));
    if digits == [] then None
    else
      var magnitude: int := DigitsValue(digits);
      Some(if |t| > 0 && t[0] == '-' then -magnitude else magnitude)
  }

  /** `t` with a leading sign character removed. */
  function SignFree(t: string): (u: string)
    ensures |t| > 0 && (t[0] == '-' || t[0] == '+') ==> u == t[1..]
    ensures !(|t| > 0 && (t[0] == '-' || t[0] == '+')) ==> u == t
  {
    if |t| > 0 && (t[0] == '-' || t[0] == '+') then t[1..] else t
  }

  /** `parseInt(s) || 0`: a non-number, and 0 itself, read as 0. */
  function ParseIntOrZero(s: string): int {
    ParseInt(s).ValueOr(0)
  }

  lemma DigitPrefixOfDigits(s: string)
    requires AllDigits(s)
    ensures DigitPrefix(s) == s
  {
  }

  /** The digit prefix of digits followed by a non-digit is those digits. */
  lemma {:induction false} DigitPrefixStops(d: string, rest: string)
    requires AllDigits(d) && (|rest| > 0 ==> !IsDigit(rest[0]))
    ensures DigitPrefix(d + rest) == d
  {
    if d != [] {
      assert (d + rest)[1..] == d[1..] + rest;
      DigitPrefixStops(d[1..], rest);
      assert [d[0]] + d[1..] == d;
    } else {
      assert d + rest == rest;
    }
  }

  /** `parseInt` reads a leading run of digits and ignores whatever
      follows the first non-digit: `parseInt("72abc")` is 72. */
  lemma ParseIntDigitsThenText(d: string, rest: string)
    requires IsDigits(d) && (|rest| > 0 ==> !IsDigit(rest[0]))
    ensures ParseInt(d + rest) == Some(DigitsValue(d))
  {
    var s := d + rest;
    assert s[0] == d[0] && IsDigit(s[0]);
    TrimStartNoop(s);
    assert SignFree(s) == s;
    DigitPrefixStops(d, rest);
  }

  /** Printing an integer and parsing it back with `parseInt` gives it back. */
  lemma ParseShowInt(n: int)
    ensures ParseInt(ShowInt(n)) == Some(n)
    ensures ParseIntOrZero(ShowInt(n)) == n
  {
    var s := ShowInt(n);
    TrimStartNoop(s);
    if n < 0 {
      assert SignFree(s) == s[1..];
      DigitPrefixOfDigits(s[1..]);
    } else {
      assert SignFree(s) == s;
      DigitPrefixOfDigits(s);
    }
  }

  // ---------------------------------------------------------------- split

  /** Python's `s.split(sep)` for a one-character separator: the pieces
      between consecutive separators, always at least one. */
  function Split(s: string, sep: char): (parts: seq<string>)
    ensures |parts| >= 1
    ensures forall k :: 0 <= k < |parts| ==> sep !in parts[k]
  {
    if s == [] then [[]]
    else if s[0] == sep then [[]] + Split(s[1..], sep)
    else
      var rest := Split(s[1..], sep);
      [[s[0]] + rest[0]] + rest[1..]
  }

  /** `sep.join(parts)`. */
  function Join(parts: seq<string>, sep: char): string
    requires |parts| >= 1
  {
    if |parts| == 1 then parts[0] else parts[0] + [sep] + Join(parts[1..], sep)
  }

  /** Splitting and joining again restores the string. */
  lemma {:induction false} JoinSplit(s: string, sep: char)
    ensures Join(Split(s, sep), sep) == s
  {
    if s == [] {
    } else if s[0] == sep {
      JoinSplit(s[1..], sep);
      assert [sep] + s[1..] == s;
    } else {
      var rest := Split(s[1..], sep);
      JoinSplit(s[1..], sep);
      if |rest| == 1 {
        assert [s[0]] + rest[0] == s;
      } else {
        assert Join(rest, sep) == rest[0] + [sep] + Join(rest[1..], sep);
        assert Join([[s[0]] + rest[0]] + rest[1..], sep)
            == [s[0]] + rest[0] + [sep] + Join(rest[1..], sep);
        assert [s[0]] + Join(rest, sep) == s;
      }
    }
  }

  /** A string with no separator splits into itself alone. */
  lemma {:induction false} SplitWithoutSeparator(s: string, sep: char)
    requires sep !in s
    ensures Split(s, sep) == [s]
  {
    if s != [] {
      SplitWithoutSeparator(s[1..], sep);
      assert [s[0]] + s[1..] == s;
    }
  }

  /** Splitting `a + sep + b`, where neither piece holds the separator,
      gives exactly the two pieces. */
  lemma {:induction false} SplitTwo(a: string, b: string, sep: char)
    requires sep !in a && sep !in b
    ensures Split(a + [sep] + b, sep) == [a, b]
  {
    if a == [] {
      assert a + [sep] + b == [sep] + b;
      assert ([sep] + b)[1..] == b;
      SplitWithoutSeparator(b, sep);
    } else {
      var s := a + [sep] + b;
      assert s[1..] == a[1..] + [sep] + b;
      SplitTwo(a[1..], b, sep);
      assert [a[0]] + a[1..] == a;
    }
  }

  // ---------------------------------------------------------------- hex

  type byte = x: int | 0 <= x < 256

  function HexDigit(d: nat): (c: char)
    requires d < 16
    ensures IsHexChar(c)
  {
    if d < 10 then ('0' as int + d) as char else ('a' as int + d - 10) as char
  }

  predicate IsHexChar(c: char) {
    IsDigit(c) || 'a' <= c <= 'f'
  }

  /** Python's `bytes.hex()`: two lower-case hex digits per byte. */
  function Hex(bytes: seq<byte>): (s: string)
    ensures |s| == 2 * |bytes|
    ensures forall i :: 0 <= i < |s| ==> IsHexChar(s[i])
  {
    if bytes == [] then []
    else [HexDigit(bytes[0] / 16), HexDigit(bytes[0] % 16)] + Hex(bytes[1..])
  }

  /** No hex string holds a ':'. */
  lemma HexHasNoColon(bytes: seq<byte>)
    ensures ':' !in Hex(bytes)
  {
    var s := Hex(bytes);
    assert forall i :: 0 <= i < |s| ==> s[i] != ':';
  }

  /** Distinct hex digits are distinct characters. */
  lemma HexDigitInjective(a: nat, b: nat)
    requires a < 16 && b < 16 && HexDigit(a) == HexDigit(b)
    ensures a == b
  {
  }

  /** Two byte strings with the same hex form are equal. */
  lemma {:induction false} HexInjective(xs: seq<byte>, ys: seq<byte>)
    requires Hex(xs) == Hex(ys)
    ensures xs == ys
  {
    if xs != [] {
      var hx, hy := Hex(xs), Hex(ys);
      assert hx[0] == hy[0] && hx[1] == hy[1];
      HexDigitInjective(xs[0] / 16, ys[0] / 16);
      HexDigitInjective(xs[0] % 16, ys[0] % 16);
      assert xs[0] == 16 * (xs[0] / 16) + xs[0] % 16;
      assert hx[2..] == Hex(xs[1..]) && hy[2..] == Hex(ys[1..]);
      HexInjective(xs[1..], ys[1..]);
    }
  }
}

=== FILE: user_table.dfy ===
/** The Member sheet as `UserManager` (user_manager.py) uses it: the
    `salt:digest` password format, the three first-match lookups, sign-up,
    sign-in with the last-login write, and the user listing. `values` is
    what reading `Member!A1:F1000` returned, header row included. PBKDF2 is
    the parameter `kdf`; random ids and salts and the clock are
    parameters too. */
module UserTable {
  import opened Wrappers
  import opened Text
  import opened Cells

  /** A user as a lookup returns it. */
  datatype UserRecord = UserRecord(
    userId: string,
    username: string,
    email: string,
    passwordHash: string,
    createdAt: string,
    lastLogin: string)

  /** The header `_ensure_users_headers` writes. */
  function UserHeaders(): seq<string> {
    ["user_id", "username", "email", "password_hash", "created_at", "last_login"]
  }

  /** `_ensure_users_headers`, given what reading `Member!A1:F1` returned:
      the header is written only to an empty sheet or an empty first row. */
  function EnsureUserHeaders(firstRow: seq<seq<string>>): (w: Option<seq<string>>)
    ensures w.Some? <==> firstRow == [] || firstRow[0] == []
    ensures w.Some? ==> |w.value| == 6 && w.value[0] == "user_id" && w.value[3] == "password_hash"
    ensures w.Some? ==>
      && w.value[1] == "username" && w.value[2] == "email"
      && w.value[4] == "created_at" && w.value[5] == "last_login"
  {
    if firstRow == [] || firstRow[0] == [] then Some(UserHeaders()) else None
  }

  // ---------------------------------------------------------------- password format

  /** PBKDF2-HMAC-SHA256 with 100000 rounds over the UTF-8 bytes of the
      password and of the salt string. */
  type Kdf = (string, string) -> seq<byte>

  const SaltBytes: nat := 16

  /** `_hash_password`: a 32-digit hex salt, a colon, and the hex digest of
      the password under that salt. `salt` is what `secrets.token_hex(16)`
      drew. */
  function HashPassword(password: string, salt: seq<byte>, kdf: Kdf): (stored: string)
    requires |salt| == SaltBytes
    ensures |stored| == 2 * SaltBytes + 1 + 2 * |kdf(password, Hex(salt))|
    ensures stored[2 * SaltBytes] == ':'
    ensures Split(stored, ':') == [Hex(salt), Hex(kdf(password, Hex(salt)))]
  {
    var saltHex := Hex(salt);
    var digest := Hex(kdf(password, saltHex));
    HexHasNoColon(salt);
    HexHasNoColon(kdf(password, saltHex));
    SplitTwo(saltHex, digest, ':');
    saltHex + ":" + digest
  }

  /** `stored` is `salt:digest` for a colon-free `salt` whose PBKDF2
      digest of `password`, in hex, is `digest`. */
  predicate IsStoredHashOf(stored: string, password: string, salt: string, kdf: Kdf) {
    ':' !in salt && stored == salt + ":" + Hex(kdf(password, salt))
  }

  /** The test `_verify_password` runs, seen from the stored value: it
      splits into two parts and the second is the digest under the first
      exactly when the value is a salt, a colon and that digest. */
  lemma StoredHashForm(password: string, stored: string, kdf: Kdf)
    ensures (var parts := Split(stored, ':'); |parts| == 2 && Hex(kdf(password, parts[0])) == parts[1])
      <==> exists salt :: IsStoredHashOf(stored, password, salt, kdf)
  {
    var parts := Split(stored, ':');
    if |parts| == 2 && Hex(kdf(password, parts[0])) == parts[1] {
      JoinSplit(stored, ':');
      assert Join(parts[1..], ':') == parts[1];
      assert stored == parts[0] + ":" + parts[1];
      assert IsStoredHashOf(stored, password, parts[0], kdf);
    }
    if salt :| IsStoredHashOf(stored, password, salt, kdf) {
      var digest := Hex(kdf(password, salt));
      HexHasNoColon(kdf(password, salt));
      assert stored == salt + [':'] + digest;
      SplitTwo(salt, digest, ':');
    }
  }

  /** `_verify_password`: the stored value must split on ':' into exactly
      two parts (anything else raises and reads as a mismatch), and the
      password's digest under the first part must be the second. */
  function VerifyPassword(password: string, stored: string, kdf: Kdf): (ok: bool)
    ensures ok <==> exists salt :: IsStoredHashOf(stored, password, salt, kdf)
  {
    StoredHashForm(password, stored, kdf);
    var parts := Split(stored, ':');
    |parts| == 2 && Hex(kdf(password, parts[0])) == parts[1]
  }

  /** A password checks against its own hash. */
  lemma VerifyOwnHash(password: string, salt: seq<byte>, kdf: Kdf)
    requires |salt| == SaltBytes
    ensures VerifyPassword(password, HashPassword(password, salt, kdf), kdf)
  {
  }

  /** Another password checks against a hash exactly when PBKDF2 gives it
      the same digest under that salt. */
  lemma VerifyHashIff(password: string, other: string, salt: seq<byte>, kdf: Kdf)
    requires |salt| == SaltBytes
    ensures VerifyPassword(other, HashPassword(password, salt, kdf), kdf)
      <==> kdf(other, Hex(salt)) == kdf(password, Hex(salt))
  {
    if VerifyPassword(other, HashPassword(password, salt, kdf), kdf) {
      HexInjective(kdf(other, Hex(salt)), kdf(password, Hex(salt)));
    }
  }

  /** A stored value without a colon never verifies. */
  lemma VerifyNeedsColon(password: string, stored: string, kdf: Kdf)
    requires ':' !in stored
    ensures !VerifyPassword(password, stored, kdf)
  {
    SplitWithoutSeparator(stored, ':');
  }

  /** A stored value with two colons never verifies. */
  lemma VerifyRejectsTwoColons(password: string, a: string, b: string, c: string, kdf: Kdf)
    requires ':' !in a && ':' !in b && ':' !in c
    ensures !VerifyPassword(password, a + ":" + b + ":" + c, kdf)
  {
    var s := a + ":" + b + ":" + c;
    assert s == a + [':'] + (b + [':'] + c);
    SplitTwo(b, c, ':');
    SplitPrefix(a, b + [':'] + c, ':');
  }

  /** Splitting after a separator-free prefix and a separator puts the
      prefix first and the rest's pieces after it. */
  lemma {:induction false} SplitPrefix(a: string, rest: string, sep: char)
    requires sep !in a
    ensures Split(a + [sep] + rest, sep) == [a] + Split(rest, sep)
  {
    if a == [] {
      assert a + [sep] + rest == [sep] + rest;
      assert ([sep] + rest)[1..] == rest;
    } else {
      var s := a + [sep] + rest;
      assert s[1..] == a[1..] + [sep] + rest;
      SplitPrefix(a[1..], rest, sep);
      assert [a[0]] + a[1..] == a;
    }
  }

  // ---------------------------------------------------------------- lookups

  /** `values[1:]`: the rows below the header. Data row `k` (0-based) is
      sheet row `k + 2`. */
  function DataRows(values: seq<seq<string>>): (rows: seq<seq<string>>)
    ensures |rows| == if values == [] then 0 else |values| - 1
    ensures forall k :: 0 <= k < |rows| ==> rows[k] == values[k + 1]
  {
    if values == [] then [] else values[1..]
  }

  /** Appending a row below the header adds it to the data rows. */
  lemma DataRowsAppend(values: seq<seq<string>>, row: seq<string>)
    requires values != []
    ensures DataRows(values + [row]) == DataRows(values) + [row]
  {
    assert (values + [row])[1..] == values[1..] + [row];
  }

  /** The condition a lookup loop tests: at least `minLen` cells and the
      key in cell `col`. */
  predicate RowMatches(row: seq<string>, col: nat, minLen: nat, key: string)
    requires col < minLen
  {
    |row| >= minLen && row[col] == key
  }

  /** The index of the first matching row. */
  function FirstMatch(rows: seq<seq<string>>, col: nat, minLen: nat, key: string): (i: Option<nat>)
    requires col < minLen
    ensures i.Some? ==>
      && i.value < |rows| && RowMatches(rows[i.value], col, minLen, key)
      && forall k :: 0 <= k < i.value ==> !RowMatches(rows[k], col, minLen, key)
    ensures i.None? <==> forall k :: 0 <= k < |rows| ==> !RowMatches(rows[k], col, minLen, key)
  {
    if rows == [] then None
    else if RowMatches(rows[0], col, minLen, key) then Some(0)
    else match FirstMatch(rows[1..], col, minLen, key)
      case None => None
      case Some(i) => Some(i + 1)
  }

  /** A matching row appended below rows that do not match is the first match. */
  lemma {:induction false} FirstMatchAppended(rows: seq<seq<string>>, row: seq<string>, col: nat, minLen: nat, key: string)
    requires col < minLen
    requires forall k :: 0 <= k < |rows| ==> !RowMatches(rows[k], col, minLen, key)
    requires RowMatches(row, col, minLen, key)
    ensures FirstMatch(rows + [row], col, minLen, key) == Some(|rows|)
  {
    if rows == [] {
      assert [] + [row] == [row];
    } else {
      assert (rows + [row])[1..] == rows[1..] + [row];
      FirstMatchAppended(rows[1..], row, col, minLen, key);
    }
  }

  /** Replacing the first matching row by a row that still matches keeps
      it the first match. */
  lemma {:induction false} FirstMatchReplaced(rows: seq<seq<string>>, i: nat, row: seq<string>, col: nat, minLen: nat, key: string)
    requires col < minLen
    requires FirstMatch(rows, col, minLen, key) == Some(i)
    requires RowMatches(row, col, minLen, key)
    ensures FirstMatch(rows[i := row], col, minLen, key) == Some(i)
  {
    if i > 0 {
      assert rows[i := row][1..] == rows[1..][i - 1 := row];
      FirstMatchReplaced(rows[1..], i - 1, row, col, minLen, key);
    }
  }

  /** The user a row of at least four cells describes. */
  function RecordOf(row: seq<string>): (u: UserRecord)
    requires |row| >= 4
    ensures u.userId == row[0] && u.username == row[1] && u.email == row[2] && u.passwordHash == row[3]
    ensures u.createdAt == CellOrEmpty(row, 4) && u.lastLogin == CellOrEmpty(row, 5)
  {
    UserRecord(row[0], row[1], row[2], row[3], CellOrEmpty(row, 4), CellOrEmpty(row, 5))
  }

  /** The shared lookup loop: the first matching data row decides; building
      the record from it raises when it has fewer than four cells, and the
      lookup then gives `None`. */
  function Lookup(values: seq<seq<string>>, col: nat, minLen: nat, key: string): (u: Option<UserRecord>)
    requires col < minLen
    ensures var i := FirstMatch(DataRows(values), col, minLen, key);
      && (u.Some? <==> i.Some? && |DataRows(values)[i.value]| >= 4)
      && (u.Some? ==> u.value == RecordOf(DataRows(values)[i.value]))
  {
    var rows := DataRows(values);
    match FirstMatch(rows, col, minLen, key)
    case None => None
    case Some(i) => if |rows[i]| >= 4 then Some(RecordOf(rows[i])) else None
  }

  /** `get_user_by_username`: the first data row of at least four cells
      whose username is exactly `username`; `None` when there is none. */
  function GetUserByUsername(values: seq<seq<string>>, username: string): (u: Option<UserRecord>)
    ensures var rows := DataRows(values);
      u.None? <==> forall k :: 0 <= k < |rows| ==> !(|rows[k]| >= 4 && rows[k][1] == username)
    ensures var rows := DataRows(values);
      u.Some? ==> exists k :: (0 <= k < |rows| && |rows[k]| >= 4 && rows[k][1] == username
        && u.value == RecordOf(rows[k])
        && (forall j :: 0 <= j < k ==> !(|rows[j]| >= 4 && rows[j][1] == username)))
  {
    Lookup(values, 1, 4, username)
  }

  /** `get_user_by_email`: the first data row of at least three cells whose
      email is exactly `email` decides; when that row has only three
      cells, reading its password cell raises and the lookup gives `None`
      even if a later row matches. */
  function GetUserByEmail(values: seq<seq<string>>, email: string): (u: Option<UserRecord>)
    ensures var rows := DataRows(values);
      u.Some? <==> exists k :: (0 <= k < |rows| && |rows[k]| >= 4 && rows[k][2] == email
        && (forall j :: 0 <= j < k ==> !(|rows[j]| >= 3 && rows[j][2] == email)))
    ensures var rows := DataRows(values);
      u.Some? ==> exists k :: (0 <= k < |rows| && |rows[k]| >= 4 && rows[k][2] == email
        && u.value == RecordOf(rows[k])
        && (forall j :: 0 <= j < k ==> !(|rows[j]| >= 3 && rows[j][2] == email)))
    ensures u.Some? ==> u.value.email == email
  {
    var rows := DataRows(values);
    var i := FirstMatch(rows, 2, 3, email);
    assert forall k :: (0 <= k < |rows| && |rows[k]| >= 4 && rows[k][2] == email
      && (forall j :: 0 <= j < k ==> !(|rows[j]| >= 3 && rows[j][2] == email))) ==> i == Some(k);
    Lookup(values, 2, 3, email)
  }

  /** `get_user_by_id`: the first data row whose id is exactly `userId`
      decides; a row shorter than four cells gives `None`. */
  function GetUserById(values: seq<seq<string>>, userId: string): (u: Option<UserRecord>)
    ensures var rows := DataRows(values);
      u.Some? <==> exists k :: (0 <= k < |rows| && |rows[k]| >= 4 && rows[k][0] == userId
        && (forall j :: 0 <= j < k ==> !(|rows[j]| >= 1 && rows[j][0] == userId)))
    ensures var rows := DataRows(values);
      u.Some? ==> exists k :: (0 <= k < |rows| && |rows[k]| >= 4 && rows[k][0] == userId
        && u.value == RecordOf(rows[k])
        && (forall j :: 0 <= j < k ==> !(|rows[j]| >= 1 && rows[j][0] == userId)))
    ensures u.Some? ==> u.value.userId == userId
  {
    var rows := DataRows(values);
    var i := FirstMatch(rows, 0, 1, userId);
    assert forall k :: (0 <= k < |rows| && |rows[k]| >= 4 && rows[k][0] == userId
      && (forall j :: 0 <= j < k ==> !(|rows[j]| >= 1 && rows[j][0] == userId))) ==> i == Some(k);
    Lookup(values, 0, 1, userId)
  }

  /** A three-cell row with the email hides a complete row with the same
      email below it. */
  lemma EmailLookupShadowed()
    ensures GetUserByEmail([UserHeaders(), ["id1", "bob", "e@x.com"], ["id2", "carol", "e@x.com", "h"]], "e@x.com") == None
  {
    var values := [UserHeaders(), ["id1", "bob", "e@x.com"], ["id2", "carol", "e@x.com", "h"]];
    assert RowMatches(DataRows(values)[0], 2, 3, "e@x.com");
  }

  // ---------------------------------------------------------------- register_user

  const UsernameTakenMessage := "이미 존재하는 사용자명입니다."
  const EmailTakenMessage := "이미 존재하는 이메일입니다."

  datatype Registration =
    | RegisterRejected(message: string)
    | RegisterAppend(row: seq<string>, userId: string)

  /** `register_user`: refused when the username lookup finds a user
      (checked first) or the email lookup does; otherwise the six-cell row
      to append, with an empty last login. `idBytes` and `salt` are the two
      `secrets.token_hex(16)` draws; `createdAt` is the formatted clock. */
  function RegisterUser(values: seq<seq<string>>, username: string, email: string, password: string,
                        idBytes: seq<byte>, salt: seq<byte>, kdf: Kdf, createdAt: string): (r: Registration)
    requires |idBytes| == 16 && |salt| == SaltBytes
    ensures GetUserByUsername(values, username).Some? ==> r == RegisterRejected(UsernameTakenMessage)
    ensures GetUserByUsername(values, username).None? && GetUserByEmail(values, email).Some? ==>
      r == RegisterRejected(EmailTakenMessage)
    ensures r.RegisterAppend? <==> GetUserByUsername(values, username).None? && GetUserByEmail(values, email).None?
    ensures r.RegisterAppend? ==>
      && r.userId == Hex(idBytes) && |r.userId| == 32
      && r.row == [r.userId, username, email, HashPassword(password, salt, kdf), createdAt, ""]
  {
    if GetUserByUsername(values, username).Some? then RegisterRejected(UsernameTakenMessage)
    else if GetUserByEmail(values, email).Some? then RegisterRejected(EmailTakenMessage)
    else
      var userId := Hex(idBytes);
      RegisterAppend([userId, username, email, HashPassword(password, salt, kdf), createdAt, ""], userId)
  }

  /** After a sign-up is appended below the header, looking the username
      up finds the new user, with the hash of the chosen password. */
  lemma RegisterThenLookup(values: seq<seq<string>>, username: string, email: string, password: string,
                           idBytes: seq<byte>, salt: seq<byte>, kdf: Kdf, createdAt: string)
    requires values != []
    requires |idBytes| == 16 && |salt| == SaltBytes
    requires RegisterUser(values, username, email, password, idBytes, salt, kdf, createdAt).RegisterAppend?
    ensures
      var row := RegisterUser(values, username, email, password, idBytes, salt, kdf, createdAt).row;
      GetUserByUsername(values + [row], username)
        == Some(UserRecord(Hex(idBytes), username, email, HashPassword(password, salt, kdf), createdAt, ""))
  {
    var hash := HashPassword(password, salt, kdf);
    var row := [Hex(idBytes), username, email, hash, createdAt, ""];
    assert GetUserByUsername(values, username).None? && RegisterUser(values, username, email, password, idBytes, salt, kdf, createdAt).row == row;
    AppendThenLookup(values, row, username);
    assert RecordOf(row) == UserRecord(Hex(idBytes), username, email, hash, createdAt, "");
  }

  /** A complete row appended below the header is what a lookup of its
      username finds, when no earlier row has that username. */
  lemma AppendThenLookup(values: seq<seq<string>>, row: seq<string>, username: string)
    requires values != [] && |row| >= 4 && row[1] == username
    requires GetUserByUsername(values, username).None?
    ensures GetUserByUsername(values + [row], username) == Some(RecordOf(row))
  {
    var rows := DataRows(values);
    DataRowsAppend(values, row);
    assert forall k :: 0 <= k < |rows| ==> !RowMatches(rows[k], 1, 4, username);
    FirstMatchAppended(rows, row, 1, 4, username);
    assert DataRows(values + [row])[|rows|] == row;
  }

  // ---------------------------------------------------------------- authenticate_user

  /** The one message for an unknown username and for a wrong password. */
  const BadCredentialsMessage := "사용자명 또는 비밀번호가 올바르지 않습니다."

  /** What a successful sign-in reports: no password hash. */
  datatype PublicUser = PublicUser(userId: string, username: string, email: string)

  /** A one-cell write: `column` and 1-based sheet `rowNumber`. */
  datatype CellWrite = CellWrite(column: string, rowNumber: nat, value: string)

  /** The A1-notation range of a write, `F{i}`. */
  function WriteRange(w: CellWrite): string {
    w.column + ShowNat(w.rowNumber)
  }

  /** `update_last_login`: the first data row (k-th, 0-based) whose id is
      `userId` gets `now` in column F of sheet row k + 2; no match, no
      write. */
  function UpdateLastLogin(values: seq<seq<string>>, userId: string, now: string): (w: Option<CellWrite>)
    ensures var rows := DataRows(values);
      w.None? <==> forall k :: 0 <= k < |rows| ==> !(|rows[k]| >= 1 && rows[k][0] == userId)
    ensures var rows := DataRows(values);
      w.Some? ==>
        && w.value.column == "F" && w.value.value == now
        && 2 <= w.value.rowNumber <= |rows| + 1
        && var k := w.value.rowNumber - 2;
           && |rows[k]| >= 1 && rows[k][0] == userId
           && forall j :: 0 <= j < k ==> !(|rows[j]| >= 1 && rows[j][0] == userId)
  {
    match FirstMatch(DataRows(values), 0, 1, userId)
    case None => None
    case Some(k) => Some(CellWrite("F", k + 2, now))
  }

  /** A row with cell `col` set to `v`, padded with empty cells when it was
      shorter. */
  function SetCell(row: seq<string>, col: nat, v: string): (r: seq<string>)
    ensures |r| == if col < |row| then |row| else col + 1
    ensures r[col] == v
    ensures forall j :: 0 <= j < |r| && j != col ==> r[j] == CellOrEmpty(row, j)
  {
    if col < |row| then row[col := v] else row + seq(col - |row|, _ => "") + [v]
  }

  /** The Member sheet after a one-cell write to column F of sheet row
      `rowNumber`, which is `values[rowNumber - 1]`. The source's range
      `F{i}` names no sheet, so this is where the write lands when Member
      is the spreadsheet's first sheet. */
  function ApplyLastLogin(values: seq<seq<string>>, w: CellWrite): (after: seq<seq<string>>)
    requires 1 <= w.rowNumber <= |values|
    ensures |after| == |values|
    ensures after[w.rowNumber - 1] == SetCell(values[w.rowNumber - 1], 5, w.value)
    ensures forall k :: 0 <= k < |values| && k != w.rowNumber - 1 ==> after[k] == values[k]
  {
    values[w.rowNumber - 1 := SetCell(values[w.rowNumber - 1], 5, w.value)]
  }

  /** Setting the last-login cell changes only the last login of the user
      a row describes. */
  lemma RecordOfSetLastLogin(row: seq<string>, now: string)
    requires |row| >= 4
    ensures RecordOf(SetCell(row, 5, now)) == RecordOf(row).(lastLogin := now)
  {
    var r := SetCell(row, 5, now);
    assert r[4] == CellOrEmpty(row, 4);
  }

  /** The last-login write lands on the matched user's own row, the sheet
      row two below its data index: the header and every other row are
      untouched, and afterwards the id lookup returns the same user with
      the new last login. */
  lemma LastLoginTargetsUserRow(values: seq<seq<string>>, userId: string, now: string)
    requires UpdateLastLogin(values, userId, now).Some?
    ensures var w := UpdateLastLogin(values, userId, now).value;
      var after := ApplyLastLogin(values, w);
      && (forall k :: 0 <= k < |values| && k != w.rowNumber - 1 ==> after[k] == values[k])
      && after[w.rowNumber - 1] == SetCell(values[w.rowNumber - 1], 5, now)
      && (GetUserById(values, userId).Some? ==>
            GetUserById(after, userId) == Some(GetUserById(values, userId).value.(lastLogin := now)))
  {
    var w := UpdateLastLogin(values, userId, now).value;
    var after := ApplyLastLogin(values, w);
    var rows := DataRows(values);
    var i := w.rowNumber - 2;
    assert FirstMatch(rows, 0, 1, userId) == Some(i);
    var row' := SetCell(rows[i], 5, now);
    assert DataRows(after) == rows[i := row'];
    FirstMatchReplaced(rows, i, row', 0, 1, userId);
    if |rows[i]| >= 4 {
      RecordOfSetLastLogin(rows[i], now);
    }
  }

  datatype Authentication =
    | AuthFailed(message: string)
    | AuthSucceeded(user: PublicUser, write: Option<CellWrite>)

  /** `authenticate_user`: the username lookup must find a user and the
      password must verify against the stored hash; both failures give the
      same message. On success the last login is written for the user's
      id and only id, username and email are reported. */
  function AuthenticateUser(values: seq<seq<string>>, username: string, password: string,
                            kdf: Kdf, now: string): (r: Authentication)
    ensures r.AuthFailed? ==> r.message == BadCredentialsMessage
    ensures r.AuthSucceeded? <==>
      GetUserByUsername(values, username).Some?
      && VerifyPassword(password, GetUserByUsername(values, username).value.passwordHash, kdf)
    ensures r.AuthSucceeded? ==>
      var u := GetUserByUsername(values, username).value;
      && r.user == PublicUser(u.userId, username, u.email)
      && r.write == UpdateLastLogin(values, u.userId, now)
  {
    match GetUserByUsername(values, username)
    case None => AuthFailed(BadCredentialsMessage)
    case Some(u) =>
      if !VerifyPassword(password, u.passwordHash, kdf) then AuthFailed(BadCredentialsMessage)
      else AuthSucceeded(PublicUser(u.userId, u.username, u.email), UpdateLastLogin(values, u.userId, now))
  }

  /** Signing up and then signing in with the same password succeeds and
      reports the new user's id; a password with a different digest is
      refused with the common message. */
  lemma RegisterThenAuthenticate(values: seq<seq<string>>, username: string, email: string, password: string,
                                 other: string, idBytes: seq<byte>, salt: seq<byte>, kdf: Kdf,
                                 createdAt: string, now: string)
    requires values != []
    requires |idBytes| == 16 && |salt| == SaltBytes
    requires RegisterUser(values, username, email, password, idBytes, salt, kdf, createdAt).RegisterAppend?
    requires kdf(other, Hex(salt)) != kdf(password, Hex(salt))
    ensures
      var row := RegisterUser(values, username, email, password, idBytes, salt, kdf, createdAt).row;
      && AuthenticateUser(values + [row], username, password, kdf, now).AuthSucceeded?
      && AuthenticateUser(values + [row], username, password, kdf, now).user == PublicUser(Hex(idBytes), username, email)
      && AuthenticateUser(values + [row], username, other, kdf, now) == AuthFailed(BadCredentialsMessage)
  {
    RegisterThenLookup(values, username, email, password, idBytes, salt, kdf, createdAt);
    VerifyOwnHash(password, salt, kdf);
    VerifyHashIff(password, other, salt, kdf);
  }

  // ---------------------------------------------------------------- get_all_users

  /** A user as the listing shows it: without the password hash. */
  datatype UserListing = UserListing(userId: string, username: string, email: string, createdAt: string, lastLogin: string)

  function ListingOf(u: UserRecord): UserListing {
    UserListing(u.userId, u.username, u.email, u.createdAt, u.lastLogin)
  }

  /** Listings of the rows with at least four cells, in order. */
  function ListRows(rows: seq<seq<string>>): (users: seq<UserListing>)
    ensures |users| <= |rows|
    ensures forall i :: 0 <= i < |rows| && |rows[i]| >= 4 ==> ListingOf(RecordOf(rows[i])) in users
    ensures forall x :: x in users ==>
      exists i :: 0 <= i < |rows| && |rows[i]| >= 4 && x == ListingOf(RecordOf(rows[i]))
  {
    if rows == [] then []
    else
      var rest := ListRows(rows[1..]);
      assert forall i :: 1 <= i < |rows| ==> rows[i] == rows[1..][i - 1];
      assert forall x :: x in rest ==>
        exists i :: 1 <= i < |rows| && |rows[i]| >= 4 && x == ListingOf(RecordOf(rows[i]));
      (if |rows[0]| >= 4 then [ListingOf(RecordOf(rows[0]))] else []) + rest
  }

  /** Listing distributes over concatenation: the order of the sheet is kept. */
  lemma {:induction false} ListRowsAppend(a: seq<seq<string>>, b: seq<seq<string>>)
    ensures ListRows(a + b) == ListRows(a) + ListRows(b)
  {
    if a == [] {
      assert a + b == b;
    } else {
      assert (a + b)[0] == a[0];
      assert (a + b)[1..] == a[1..] + b;
      ListRowsAppend(a[1..], b);
    }
  }

  /** `get_all_users`: the listing of every data row with at least four
      cells. */
  function GetAllUsers(values: seq<seq<string>>): (users: seq<UserListing>)
    ensures values == [] ==> users == []
    ensures values != [] ==> users == ListRows(values[1..])
  {
    if values == [] then [] else ListRows(values[1..])
  }

  /** Every user a username lookup finds is in the listing. */
  lemma FoundUserIsListed(values: seq<seq<string>>, username: string)
    requires GetUserByUsername(values, username).Some?
    ensures ListingOf(GetUserByUsername(values, username).value) in GetAllUsers(values)
  {
    var u := GetUserByUsername(values, username).value;
    var k :| 1 <= k < |values| && |values[k]| >= 4 && values[k][1] == username && u == RecordOf(values[k])
      && forall j :: 1 <= j < k ==> !(|values[j]| >= 4 && values[j][1] == username);
    assert values[1..][k - 1] == values[k];
  }
}

=== FILE: wrappers.dfy ===
/** Optional values, the model's stand-in for Python's `None` and JavaScript's
    `undefined`/`null`. */
module Wrappers {

  datatype Option<+T> = None | Some(value: T) {

    /** The carried value, or `fallback` when there is none (JavaScript's
        `x || fallback` where `x` is falsy only by being absent). */
    function ValueOr(fallback: T): T {
      if Some? then value else fallback
    }
  }
}
